=== FILE: README.md ===
# OpenMonitor sensor core in Dafny

A functional model of the sensor layer of the OpenMonitor ESP32 firmware.
Each piece of the C++ core becomes a pure function over immutable values:

- the snapshot container `SensorResult`;
- the `ISensor` contract and its four sensors (generic analog input, analog
  microphone, MPU6050 motion sensor, MQ135 gas sensor);
- the `SensorManager` loops;
- the exception hierarchy;
- the `ResultCode` helpers.

The contracts say what each piece promises. The lemmas relate the pieces.

Modelling conventions:

- **Exceptions.** An exception is a value `Exception(kind, what)`. `kind` is
  the C++ class. `DerivesFrom` follows the class hierarchy, so a
  `catch (const X&)` clause is `Catches(X, e)`.
- **Partial state changes.** A member that changes its object and may also
  throw returns a `Transition(next, result)`. State written before the
  throw is kept, as in C++. Examples:
  - a failed MPU6050 `begin()` still clears `isInitialized`;
  - a failed MPU6050 read has already stamped `lastReadTime`.
- **Clock.** `millis()` and `lastReadTime` are 32-bit unsigned values
  (`u32`). `millis() - lastReadTime` is `WrapSub`, wrapping modulo 2^32.
  A member that calls `millis()` twice sees one `now`.
- **Hardware.** Whatever the hardware answers becomes a parameter:
  - ADC reads;
  - MPU6050 handshakes, events and calibration reads;
  - the MQ135 regressions;
  - the dB conversion.
  The manager gets them per entry as a `Bench` (`nat -> Hardware`).
- **Floats** are `real`s, computed exactly.
- **Fixed sizes** come from `include/settings.template.h`:
  - key buffer of 8 bytes (at most 7 characters);
  - error buffer of 128 bytes;
  - microphone window of 50 ms.
- **Snapshot.** A `SensorResult` is a `Snapshot`: a sequence of
  `Entry(key, value)` in insertion order, plus the sensor name. This stands
  in for the doubly linked list and its `uint8_t` count.
- **Sensor list.** The manager's `std::vector<SensorInstance>` is a
  sequence. A null sensor pointer is `None`.
- **Drift timer.** The MPU6050 drift timer is a function-static variable in
  `update()`, so every MPU6050 object shares one copy. The model therefore
  keeps it in the manager and threads it through every `update()` call.

Behaviour worth knowing:

- **Microphone reads always throw.** The microphone's keys `mean_dBSPL` and
  `peak_dBSPL` are ten characters long, so with the template's 8-byte key
  buffer the first `set` throws `std::out_of_range("Key too long")`. The
  class comment (lib/AnalogMicrophoneSensor/AnalogMicrophoneSensor.h:8-11)
  promises dB SPL readings. The model follows the code instead: every read
  that is not withheld throws. `readAll` does not catch that exception, since its only
  handler is for `SensorReadException`. See
  `SensorManager.ForcedReadAllFailsWithMicrophone`.
- **`readAll` propagates "not initialised".** `readAll` catches only
  `SensorReadException`. An uninitialised sensor therefore makes it throw
  whatever the entry's flag says (`SensorManager.ReadAllPropagatesNotInitialized`).
  `logAllValues` does catch that exception.

## Model

| member | source | states |
|---|---|---|
| Timing.WrapSub | lib/GenericAnalogInputSensor/GenericAnalogInputSensor.cpp:23 | the unsigned difference `millis() - lastReadTime` is the unique `d` with `(b + d) mod 2^32 == a`: plain subtraction without wrap, `a + 2^32 - b` across a wrap |
| Timing.WrapSubIsUnique | lib/GenericAnalogInputSensor/GenericAnalogInputSensor.cpp:23 | any 32-bit `d` that closes `b + d == a` modulo 2^32 is the wrapped difference, so the elapsed time is well defined across clock wrap |
| CStrings.Truncate | src/ResultCode.cpp:9-10 | `strncpy` to `n` characters plus a terminator keeps a prefix of the source of at most `n` characters, all of it when it fits, exactly `n` when it does not |
| CStrings.Content | src/ResultCode.cpp:17-19 | the C string a buffer holds is a NUL-free prefix of it that ends at the first NUL, or at the end of the buffer when there is none |
| CStrings.ContentIsUnique | src/ResultCode.cpp:17-19 | any NUL-free prefix that ends at a NUL or at the end of the buffer is that C string, so a buffer holds exactly one |
| CStrings.Strncpy | src/ResultCode.cpp:9 | `strncpy(dst, src, n)` writes the source's C string into the first `n` characters, pads the rest of them with NULs, and leaves the buffer beyond `n` untouched |
| Exceptions.Base | include/SensorExceptions.h:9-44 | every class except `std::exception` has one direct base, one level closer to the root |
| Exceptions.KeyNotFoundError | include/SensorExceptions.h:41-44 | a `KeyNotFoundException` is an `out_of_range` subclass whose message is "Key not found: " followed by the key |
| Exceptions.DerivesFromTransitive | include/SensorExceptions.h:9-44 | derivation is transitive, so a handler for a base class also catches indirect subclasses |
| Exceptions.AncestorsOf | include/SensorExceptions.h:9-44 | lists all the classes each exception class derives from |
| Exceptions.SensorFailuresAreSensorExceptions | include/SensorExceptions.h:9-36 | the three sensor failures are `SensorException`s and `std::runtime_error`s |
| Exceptions.ContainerErrorsEscapeSensorHandlers | include/SensorExceptions.h:41-44 | no handler for a sensor exception class catches `invalid_argument`, `out_of_range` or `KeyNotFoundException`; `KeyNotFoundException` is caught by `out_of_range` handlers |
| Exceptions.SensorHandlersAreExclusive | include/SensorExceptions.h:17-36 | a handler for one sensor failure class catches exactly that class among the three siblings |
| ResultCodes.Value | include/ResultCode.h:8-25 | each enumerator's integer value is its position in the enumeration, starting with `OK = 0` |
| ResultCodes.ResultCodeToString | src/ResultCode.cpp:21-57 | every valid code maps to its enumerator's name, every other integer to "UNKNOWN_EXCEPTION", and every name fits the 128-byte error buffer |
| ResultCodes.ToStringOfEnumerator | src/ResultCode.cpp:21-57 | converting an enumerator's value yields its name; only `OK` has value 0 |
| ResultCodes.NameHasSignature | src/ResultCode.cpp:21-57 | every name is at least two characters long, and its length with its first two characters identify the code |
| ResultCodes.FromSignatureInvertsSignature | src/ResultCode.cpp:21-57 | the code can be recovered from that length and those two characters |
| ResultCodes.DistinctCodesDistinctNames | src/ResultCode.cpp:21-57 | different codes have different names |
| ResultCodes.NameIsNulFree | src/ResultCode.cpp:21-57 | no name `resultCodeToString` returns contains a NUL, so copying it stores all of it |
| ResultCodes.TerminatedCopy | src/ResultCode.cpp:9-10 | `strncpy` of `n` characters followed by a NUL at index `n` leaves the source's C string cut to `n` characters, whatever the buffer held |
| ResultCodes.SetLastError | src/ResultCode.cpp:7-15 | the stored message is below 128 characters and a prefix of the given message. A NUL-free message is kept whole when it fits and cut to exactly 127 characters when it does not; in general the stored text is the given message up to its first NUL, cut to 127 characters. With no message the code's name is stored |
| ResultCodes.ClearLastError | src/ResultCode.cpp:59-61 | after clearing, the last error message is empty; only the first character is overwritten, the stale characters behind it stay in the buffer |
| ResultCodes.SetOverwritesWholeBuffer | src/ResultCode.cpp:7-19 | the result of `setLastError` does not depend on the buffer it overwrites, so `getLastErrorMessage` shows nothing of any earlier message, not even the stale characters `clearLastError` leaves |
| ResultCodes.DefaultResult | include/ResultCode.h:35 | a default `Result` is a success holding the zero value |
| ResultCodes.FromCode | include/ResultCode.h:36-40 | a `Result` built from a code is an error exactly when the code is not `OK` |
| ResultCodes.IsError | include/ResultCode.h:39-40 | `isError` is the negation of `isSuccess` |
| ResultCodes.AsBool | include/ResultCode.h:42 | the boolean conversion is `isSuccess` and the negation of `isError` |
| SensorResult.New | lib/SensorResult/SensorResult.h:21 | a fresh snapshot is empty, well formed and named after its sensor |
| SensorResult.Default | lib/SensorResult/SensorResult.h:21 | the default snapshot is empty and named "Unknown" |
| SensorResult.NewNode | lib/SensorResult/SensorResultNode.h:10-18 | a node's key holds at most 7 characters. It is a prefix of the given key, equal to it when the key fits, and empty for a null key |
| SensorResult.IndexOf | lib/SensorResult/SensorResult.cpp:17-25 | the list walk finds the first entry with the key, and finds none exactly when the key is absent |
| SensorResult.KeyError | lib/SensorResult/SensorResult.cpp:7-12 | a null key and an empty key are rejected with their own `invalid_argument` messages; every other key passes |
| SensorResult.Set | lib/SensorResult/SensorResult.cpp:4-42 | fails on null or empty keys and on keys of 8 or more characters (`out_of_range`). Otherwise it overwrites the value of an existing key in place or appends a new entry at the tail; nothing else changes |
| SensorResult.GetValue | lib/SensorResult/SensorResult.cpp:44-65 | returns a value stored under the key, throws `KeyNotFoundException` exactly when the key is absent, and rejects null/empty keys |
| SensorResult.GetValueAt | lib/SensorResult/SensorResult.cpp:67-85 | succeeds exactly for indices below the count, returning that entry's value, else "Index out of range" |
| SensorResult.GetKey | lib/SensorResult/SensorResult.cpp:165-184 | succeeds exactly for indices below the count, returning that entry's key, else "Index out of range" |
| SensorResult.CountEntries | lib/SensorResult/SensorResult.cpp:87-89 | the count is the number of keys held |
| SensorResult.Has | lib/SensorResult/SensorResult.cpp:91-109 | reports key membership, rejecting null/empty keys |
| SensorResult.Remove | lib/SensorResult/SensorResult.cpp:111-147 | unlinks exactly the entry with the key and keeps the others in order; throws `KeyNotFoundException` when the key is absent |
| SensorResult.Clear | lib/SensorResult/SensorResult.cpp:149-163 | leaves the snapshot empty and keeps its name |
| SensorResult.IsEmpty | lib/SensorResult/SensorResult.h:87-89 | empty exactly when the count is zero |
| SensorResult.SetEach | lib/SensorResult/SensorResult.h:92-98 | replaying entries with `set` keeps the name and adds at most one entry per replayed entry |
| SensorResult.SetEachAppends | lib/SensorResult/SensorResult.h:92-98 | replaying distinct valid keys that are new to the target appends them unchanged and in order |
| SensorResult.Copy | lib/SensorResult/SensorResult.h:24-26 | the copy constructor reproduces a well-formed snapshot exactly |
| SensorResult.CopyAssign | lib/SensorResult/SensorResult.h:37-44 | copy assignment leaves the target equal to the source, and self-assignment changes nothing |
| SensorResult.MoveConstruct | lib/SensorResult/SensorResult.h:29-34 | the move constructor takes the contents, leaving the source empty and named "Unknown" |
| SensorResult.MoveAssign | lib/SensorResult/SensorResult.h:47-61 | move assignment takes the contents and resets the source; self-move changes nothing |
| SensorResult.SetKeepsValid | lib/SensorResult/SensorResult.cpp:4-42 | `set` preserves well-formedness: keys stay distinct and valid |
| SensorResult.SetThenGet | lib/SensorResult/SensorResult.cpp:4-65 | after `set(k, v)` with a valid key, `getValue(k)` returns `v` |
| SensorResult.SetExistingKeepsOrder | lib/SensorResult/SensorResult.cpp:17-25 | overwriting an existing key leaves the key order unchanged |
| SensorResult.SetNewAppendsKey | lib/SensorResult/SensorResult.cpp:29-40 | a new key is appended at the tail and the count grows by one |
| SensorResult.KeysWithout | lib/SensorResult/SensorResult.cpp:121-141 | unlinking node `i` removes exactly key `i` from the key sequence |
| SensorResult.WithoutKeepsUnique | lib/SensorResult/SensorResult.cpp:121-141 | unlinking a node keeps the remaining keys distinct and valid and removes the key |
| SensorResult.RemoveDeletesKey | lib/SensorResult/SensorResult.cpp:111-147 | after `remove(k)` the key is gone, the snapshot stays well formed, and the count drops by one |
| SensorResult.SetThenRemoveRestores | lib/SensorResult/SensorResult.cpp:4-147 | setting a new key then removing it gives back the original snapshot (round trip) |
| SensorResult.ClearThenSetHoldsOnlyThat | lib/SensorResult/SensorResult.cpp:149-163 | after `clear()` nothing of the old contents survives: a `set` yields a snapshot holding only that entry under the old name, whose key reads back the value while every other key is missing |
| SensorResult.MoveMatchesCopy | lib/SensorResult/SensorResult.h:24-34 | a move construction delivers the same snapshot as a copy |
| SensorResult.SensorNameFollowsConstruction | lib/SensorResult/SensorResult.h:21-61 | construction, copy, copy assignment and move assignment all carry the sensor name along |
| SensorContract.NewBase | include/ISensor.h:11-22 | a sensor starts with its name and interval and a due timer of 0 |
| SensorContract.DefaultReadOptions | include/ISensor.h:49 | `readValues()` without arguments is not forced and stamps the read time |
| SensorContract.Stamp | lib/GenericAnalogInputSensor/GenericAnalogInputSensor.cpp:26-28 | a read stamps `lastReadTime` only when `updateReadTime` is set, and never touches name or interval |
| SensorContract.StampedReadIsWithheldUntilInterval | lib/GenericAnalogInputSensor/GenericAnalogInputSensor.cpp:23-28 | after a stamped read, unforced reads are withheld until the interval has elapsed, across clock wrap |
| GenericAnalogInput.Create | lib/GenericAnalogInputSensor/GenericAnalogInputSensor.h:21-22 | the constructor records name, pin, reference voltage and interval, uninitialised |
| GenericAnalogInput.CreateDefaults | lib/GenericAnalogInputSensor/GenericAnalogInputSensor.h:21 | the defaults are 3.3 V and 60000 ms |
| GenericAnalogInput.Begin | lib/GenericAnalogInputSensor/GenericAnalogInputSensor.cpp:5-10 | `begin` always succeeds and changes nothing but the initialised flag |
| GenericAnalogInput.Update | lib/GenericAnalogInputSensor/GenericAnalogInputSensor.cpp:12-17 | `update` throws "Sensor not initialized" exactly before `begin` |
| GenericAnalogInput.ReadValues | lib/GenericAnalogInputSensor/GenericAnalogInputSensor.cpp:19-36 | throws before `begin`; an unforced read before the interval is empty and changes nothing. Otherwise it reports `voltage = raw/4095 * vRef` and `raw`, in that order, stamping the due timer if asked |
| AnalogMicrophone.Create | lib/AnalogMicrophoneSensor/AnalogMicrophoneSensor.h:21-47 | the microphone starts uninitialised and idle, with the 50 ms window, reset accumulators (minimum 4095), its pin, a window start of 0, and zero results (peak-to-peak 0, both dB levels 0.0) |
| AnalogMicrophone.Begin | lib/AnalogMicrophoneSensor/AnalogMicrophoneSensor.cpp:11-15 | `begin` resets the accumulators and leaves the window state, due timer and last results alone |
| AnalogMicrophone.SampleVrms | lib/AnalogMicrophoneSensor/AnalogMicrophoneSensor.cpp:78-81 | a sample's AC amplitude is non-negative |
| AnalogMicrophone.ProcessSample | lib/AnalogMicrophoneSensor/AnalogMicrophoneSensor.cpp:73-86 | out-of-range samples are ignored. An in-range sample is counted and its amplitude added to the sum. The new maximum is the sample or the old maximum, whichever is larger, and likewise the minimum and the peak amplitude |
| AnalogMicrophone.ComputeResults | lib/AnalogMicrophoneSensor/AnalogMicrophoneSensor.cpp:88-99 | peak-to-peak is the unsigned (wrapping) max - min. The mean level is `20·log10` of the mean amplitude when that is positive, else 0 dB (and 0 dB for an empty window). The peak level is that of the peak amplitude when positive, else 0 dB. Nothing else changes |
| AnalogMicrophone.Update | lib/AnalogMicrophoneSensor/AnalogMicrophoneSensor.cpp:17-44 | the idle/sampling machine: idle and not due does nothing; due opens a window and takes a first sample; inside the window each call takes one sample; when the window ends the results are computed and the due timer stamped |
| AnalogMicrophone.ReadValues | lib/AnalogMicrophoneSensor/AnalogMicrophoneSensor.cpp:46-63 | never changes the sensor. Throws before `begin`. Empty while sampling unless forced. Otherwise throws "Key too long" |
| AnalogMicrophone.WindowBoundsSamples | lib/AnalogMicrophoneSensor/AnalogMicrophoneSensor.cpp:73-86 | over a window the count grows by the number of in-range samples, and every in-range sample lies within the window's min and max |
| AnalogMicrophone.WindowExtremes | lib/AnalogMicrophoneSensor/AnalogMicrophoneSensor.cpp:73-86 | over a window the amplitude sum grows by exactly the in-range samples' amplitudes. The peak is at least each of them. Peak, maximum and minimum are each either the old value or one of the in-range samples |
| AnalogMicrophone.ResetWindowExtremesAreSamples | lib/AnalogMicrophoneSensor/AnalogMicrophoneSensor.cpp:65-86 | a window opened with reset accumulators that took a sample has in-range samples as its maximum and minimum, so `peakToPeak` is the spread of what was sampled |
| AnalogMicrophone.VrmsSumBounded | lib/AnalogMicrophoneSensor/AnalogMicrophoneSensor.cpp:78-85 | when every in-range amplitude is at most `p`, their sum is at most `p` per in-range sample |
| AnalogMicrophone.MeanVrmsBoundedByPeak | lib/AnalogMicrophoneSensor/AnalogMicrophoneSensor.cpp:73-95 | after a window from reset accumulators, the mean amplitude the mean level comes from never exceeds the peak amplitude |
| AnalogMicrophone.WindowLevels | lib/AnalogMicrophoneSensor/AnalogMicrophoneSensor.cpp:73-99 | after a window from reset accumulators, the mean level is that of the average amplitude of the in-range samples taken, or 0 dB when that average is zero |
| AnalogMicrophone.SamplingRunAccumulates | lib/AnalogMicrophoneSensor/AnalogMicrophoneSensor.cpp:32-36 | while all calls fall inside the open window, they take exactly the offered samples in order and the window stays open |
| AnalogMicrophone.ReadsAroundWindow | lib/AnalogMicrophoneSensor/AnalogMicrophoneSensor.cpp:46-58 | an unforced read during an open window is empty; any read after the window closes throws |
| MPU6050.Create | lib/MPU6050Sensor/MPU6050Sensor.h:18-26 | the sensor starts uninitialised with zero offsets |
| MPU6050.CreateDefaults | lib/MPU6050Sensor/MPU6050Sensor.h:18 | the default interval is 200 ms |
| MPU6050.SteadySum | lib/MPU6050Sensor/MPU6050Sensor.cpp:136-149 | a reading steady from read `i` on contributes it once per remaining read of the 1000 |
| MPU6050.SteadyMean | lib/MPU6050Sensor/MPU6050Sensor.cpp:136-156 | averaged over the 1000 reads, a steady reading gives back that reading |
| MPU6050.AccumulatedOffsetsLeakPrevious | lib/MPU6050Sensor/MPU6050Sensor.cpp:142-156 | as written, each calibration yields the mean of the reads plus a thousandth of the previous offsets |
| MPU6050.RecalibrationAtRestDrifts | lib/MPU6050Sensor/MPU6050Sensor.cpp:142-156 | as written, recalibrating at rest with x steady at 1.0 after an x offset of 1.0 moves the offset to 1.001; the reset version gives 1.0 |
| MPU6050.CalibrationAtRestMatchesReading | lib/MPU6050Sensor/MPU6050Sensor.cpp:131-156 | with offsets reset before the pass, a sensor reading a steady `m` gets exactly `m` as offsets (z less gravity), whatever they were |
| MPU6050.Calibrate | lib/MPU6050Sensor/MPU6050Sensor.cpp:121-160 | the corrected calibration: throws before initialisation; otherwise it replaces the offsets with the mean of the pass (z less gravity), as the method comment promises, and counts one calibration. The written accumulation is `AccumulatedOffsets` (see Findings) |
| MPU6050.RecalibrationIsStable | lib/MPU6050Sensor/MPU6050Sensor.cpp:121-125 | for the corrected calibration, calibrating twice on the same reads gives the offsets of calibrating once, as offsets "calculated" from a stationary sensor should; the written code does not have this property (`RecalibrationAtRestDrifts`) |
| MPU6050.FirstCalibrationAgrees | lib/MPU6050Sensor/MPU6050Sensor.cpp:142-156 | from zero offsets the written accumulation equals the mean, so the two calibrations agree on a sensor's first pass |
| MPU6050.FirstBeginMatchesWrittenCalibration | lib/MPU6050Sensor/MPU6050Sensor.cpp:142-156 | a successful first `begin()` of a freshly constructed sensor stores exactly the offsets the written `calibrate()` computes |
| MPU6050.CalibrateVersusWritten | lib/MPU6050Sensor/MPU6050Sensor.cpp:142-156 | on every later pass the written code's offsets exceed the corrected ones by a thousandth of the offsets in place before the pass, on each axis |
| MPU6050.Attempts | lib/MPU6050Sensor/MPU6050Sensor.cpp:6-16 | the retry loop stops after the first successful handshake or after 5 failures, and every attempt before the stop failed |
| MPU6050.Begin | lib/MPU6050Sensor/MPU6050Sensor.cpp:5-26 | succeeds exactly when one of the first five handshakes succeeds, and then initialises and calibrates once (corrected calibration). Otherwise it clears the initialised flag and throws `SensorInitializationException` with its message |
| MPU6050.Update | lib/MPU6050Sensor/MPU6050Sensor.cpp:28-76 | throws before `begin`. A failed read changes nothing and a calm read stops the drift timer. A deviation with no timer running starts it. A deviation under 2 s changes only the flag; one of 2 s or more calibrates exactly once (corrected calibration) and stops the timer |
| MPU6050.ReadValues | lib/MPU6050Sensor/MPU6050Sensor.cpp:78-119 | throws before `begin`; an unforced read before the interval is empty. Otherwise the due timer is stamped before the read, so a failed read throws "Failed to read sensor data" after consuming it. A good read reports, in order, `ax`..`gz` each less its offset (`az` less its offset only, no gravity term) and `temp` unchanged |
| MPU6050.ReadAtRestReportsGravityOnZ | lib/MPU6050Sensor/MPU6050Sensor.cpp:96-116 | with the offsets a calibration at rest leaves, reading the same sample reports zero on every axis except `az`, which reads gravity, because calibration removes gravity from the z offset |
| MPU6050.AtRestNeverRecalibrates | lib/MPU6050Sensor/MPU6050Sensor.cpp:53-60 | any number of `update` calls whose reads stay inside the deadband never change the sensor |
| MPU6050.CalibrationsBoundedByPolls | lib/MPU6050Sensor/MPU6050Sensor.cpp:67-75 | over a run of `update` calls, calibrations never exceed the number of calls |
| MPU6050.SustainedDeviationRecalibratesOnce | lib/MPU6050Sensor/MPU6050Sensor.cpp:62-75 | a deviation first seen at a nonzero time and still present 2 s later triggers exactly one calibration and leaves the timer stopped |
| MPU6050.DeviationAtTimeZeroRestartsTimer | lib/MPU6050Sensor/MPU6050Sensor.cpp:35-65 | start time 0 means "not running", so a deviation first seen at time 0 is forgotten: the next deviation restarts the timer and nothing calibrates |
| MQ135.Create | lib/MQ135Sensor/MQ135Sensor.h:17 | the constructor records name, pin and interval, uninitialised |
| MQ135.CreateDefaults | lib/MQ135Sensor/MQ135Sensor.h:17 | the default interval is 60000 ms |
| MQ135.Begin | lib/MQ135Sensor/MQ135Sensor.cpp:7-22 | `begin` never fails, and a second call changes nothing |
| MQ135.BeginIsIdempotent | lib/MQ135Sensor/MQ135Sensor.cpp:9-12 | `begin` twice is `begin` once |
| MQ135.Update | lib/MQ135Sensor/MQ135Sensor.cpp:24-29 | `update` never throws, even before `begin` |
| MQ135.ReadValues | lib/MQ135Sensor/MQ135Sensor.cpp:31-103 | throws before `begin`; an unforced read before the interval is empty. Otherwise it reports exactly CO, Alcohol, CO2, Toluen, NH4 and Aceton, in that order, each with its regression reading, stamping the due timer if asked |
| Sensors.Begin | include/ISensor.h:30-34 | `begin` keeps the sensor's identity, succeeds exactly when it leaves the sensor initialised, and throws only `SensorInitializationException` (and only from the MPU6050) |
| Sensors.Update | include/ISensor.h:36-41 | `update` throws "Sensor not initialized" exactly for an uninitialised sensor other than the MQ135, changing nothing then. Only the MPU6050 touches the shared drift timer |
| Sensors.ReadValues | include/ISensor.h:43-49 | a read throws only "not initialized", "Failed to read sensor data" or the microphone's "Key too long". It never changes a sensor when not stamping, and returns well-formed snapshots named after the sensor |
| SensorManager.AddSensor | include/SensorManager.h:18-20 | appends one instance with the given flags (both default true) and keeps the rest |
| SensorManager.BeginFrom | include/SensorManager.h:22-35 | the loop begins entries in order and stops at the first one whose exception is not swallowed, rethrowing it. That entry's changes are kept and later entries are untouched |
| SensorManager.BeginAll | include/SensorManager.h:22-35 | `beginAll` succeeds exactly when no entry's exception escapes. Otherwise it throws the first escaping entry's exception, with every entry up to it begun and the rest untouched |
| SensorManager.LenientBeginAllNeverThrows | include/SensorManager.h:25-33 | with every entry non-critical for initialisation, `beginAll` never throws |
| SensorManager.UpdateFrom | include/SensorManager.h:37-49 | the loop stops at the first escaping entry, throwing `SensorNotInitializedException`, and succeeds exactly when none escapes. Entries outside the range it passed are left untouched |
| SensorManager.UpdateKeepsKin | include/SensorManager.h:40-41 | one `update()` keeps the entry's flags, its sensor's identity and its initialisation |
| SensorManager.UpdateFromKeepsKin | include/SensorManager.h:37-49 | every entry keeps its flags, identity and initialisation through the whole loop |
| SensorManager.UpdateFromKeepsDrift | include/SensorManager.h:37-49 | the drift timer is untouched unless the loop updated an MPU6050 |
| SensorManager.UpdateFromUpdatesEntries | include/SensorManager.h:39-41 | every non-MPU6050 entry the loop passes before it stops holds exactly what its sensor's `update()` returns |
| SensorManager.UpdateIgnoresDrift | lib/MPU6050Sensor/MPU6050Sensor.cpp:35-36 | only the MPU6050's `update()` depends on the shared drift timer |
| SensorManager.UpdateEscapes | include/SensorManager.h:42-46 | an entry leaves the loop exactly when its sensor cannot update and it is registered as critical |
| SensorManager.UpdateAll | include/SensorManager.h:37-49 | `updateAll` succeeds exactly when every uninitialised sensor (MQ135 aside) is registered as non-critical; otherwise it throws "Sensor not initialized". Every entry keeps its flags and identity. Each non-MPU6050 entry before the stop holds its sensor's `update()` result; the entry that throws and every later one keep their sensor untouched; without an MPU6050 the drift timer is kept |
| SensorManager.SharedDriftTimerStarvesSecondImu | lib/MPU6050Sensor/MPU6050Sensor.cpp:35-75 | with two MPU6050s deviating together, two `updateAll` rounds 2 s apart recalibrate only the first, and the second round restarts the shared timer |
| SensorManager.Kept | include/SensorManager.h:82-89 | an entry contributes one result exactly when it is not null and its read succeeds with a non-empty snapshot |
| SensorManager.Harvest | include/SensorManager.h:79-100 | the results `readAll` returns are well formed and non-empty, at most one per entry |
| SensorManager.ReadFrom | include/SensorManager.h:79-100 | the loop skips nulls and stops at the first escaping exception, rethrowing it. On success it returns the kept results in entry order. Non-stamping reads leave every entry as it was |
| SensorManager.ReadAll | include/SensorManager.h:79-100 | `readAll` succeeds exactly when no entry escapes, returning every kept snapshot in order; otherwise it throws the first escaping exception. Every entry up to and including the one that stops the loop holds what its read left (its due timer stamped when asked), later entries are untouched, and non-stamping reads leave the manager unchanged |
| SensorManager.ReadAndLogAllValues | include/SensorManager.h:107-114 | the forced, non-stamping read leaves the whole manager unchanged. It succeeds exactly when no entry's exception escapes `readAll`, returning the kept results, and otherwise rethrows the first escaping entry's exception |
| SensorManager.ReadAllPropagatesNotInitialized | include/SensorManager.h:86-97 | any uninitialised sensor makes `readAll` throw, whatever its flag |
| SensorManager.ForcedReadAllFailsWithMicrophone | include/SensorManager.h:86-97 | any initialised microphone makes every forced `readAll` throw |
| SensorManager.ForcedMicrophoneReadEscapes | include/SensorManager.h:86-97 | the `out_of_range` a forced microphone read raises passes the `SensorReadException` handler, so the loop leaves at that entry |
| SensorManager.LogFrom | include/SensorManager.h:51-72 | the loop reads every entry with default options and stops at the first exception not swallowed by its two handlers. Entries up to it are read; later entries are untouched |
| SensorManager.LogAllValues | include/SensorManager.h:51-72 | `logAllValues` succeeds exactly when no entry escapes, else throws the first escaping exception. Every entry up to and including the one that stops the loop holds what its default read left (due timer stamped); later entries are untouched |
| SensorManager.LenientLogAllValuesOnlyLeaksKeyErrors | include/SensorManager.h:54-70 | with every entry non-critical, the only exception `logAllValues` can throw is the microphone's "Key too long" |

## Left out

- `InfluxLogger`, `src/main.cpp` and `include/config.template.h`: network logging and the firmware's `setup`/`loop`. They are callers of the core, not part of it.
- Logging through `ArduinoLog` and the `delay()` calls: they have no effect on state or results.
- The linked list inside `SensorResult`: the `prev`/`next` pointers, `new` and `delete`. The model uses a sequence, so leaks and dangling pointers are not expressible.
- The Adafruit MPU6050 and MQUnifiedsensor libraries and `analogRead`: their answers are parameters of the model.
- Float rounding: all arithmetic is exact on reals. `log10f` in the dB computation is a parameter `toDb`.
- MPU6050.Update: the deadband test (any axis beyond 0.1 after offsets and gravity) is the boolean input `exceeded`. The float comparison is not modelled.
- MQ135.ReadValues: the six regression readings are inputs. The coefficients and the R0 of 10 are not modelled.
- AnalogMicrophone.ProcessSample: `sampleCount` is an unbounded natural number. The 32-bit `unsigned int` wrap after 2^32 samples is not modelled.
- SensorResult.Set: requires room for a new key when the key is absent. The `uint8_t` count would wrap after 255 entries; that overflow is not modelled.
- SensorResult.GetValueAt: requires at most 255 entries for the same reason (and likewise `GetKey`, `CountEntries`).
- SensorManager.UpdateAll: for MPU6050 entries the loop passes before it stops, it states only that flags, identity and initialisation are kept. Every other entry the loop passes holds exactly its `update()` result, and every entry from the one that throws on keeps its sensor untouched. An MPU6050's new offsets depend on the drift timer as earlier entries left it; `SharedDriftTimerStarvesSecondImu` shows one consequence. `SensorManager.UpdateFromUpdatesEntries` is limited the same way.
- MPU6050.Calibrate: models the calibration with the offsets reset before the pass, not the written accumulation of lines 142-156 (see Findings). The written arithmetic is `MPU6050.AccumulatedOffsets`; `MPU6050.FirstCalibrationAgrees` and `MPU6050.CalibrateVersusWritten` state exactly where the two agree and by how much they differ.
- MPU6050.Begin: calibrates with the corrected `Calibrate`. On a sensor's first `begin()` this is what the code stores (`MPU6050.FirstBeginMatchesWrittenCalibration`); a repeated `begin()` differs as `CalibrateVersusWritten` states.
- MPU6050.Update: a recalibration uses the corrected `Calibrate`, so its offsets differ from the written code's by a thousandth of the previous offsets (`CalibrateVersusWritten`).
- ResultCodes.SetLastError: messages are `string`s that may contain NULs; the C pointer's null case is `None`. A message is never read past a NUL, as in C.
- SensorManager.BeginAll: requires every entry to be non-null. `beginAll`, `updateAll` and `logAllValues` dereference entries unchecked, and a null entry there is undefined behaviour. The same holds for `UpdateAll` and `LogAllValues`.
- A member that reads `millis()` twice, such as `readValues`, sees one `now`.
- The `SensorEntry` struct is represented by `Entry` with the key bound of `ValidKey`.

## Findings

| source | as written | input that shows it | evidently intended | confidence | as-written member | corrected member |
|---|---|---|---|---|---|---|
| lib/MPU6050Sensor/MPU6050Sensor.cpp:142-156 | `calibrate()` adds the 1000 reads to the offsets already in place and divides by 1000, never resetting them first | a recalibration at rest (e.g. the one `update()` triggers) with x steady at 1.0 after a first pass set the x offset to 1.0 yields 1.001 | reset the offsets before accumulating, so the offsets are the mean of the pass | high; not executed | MPU6050.RecalibrationAtRestDrifts | MPU6050.CalibrationAtRestMatchesReading |

=== FILE: analog_microphone.dfy ===
/** `AnalogMicrophoneSensor`: sound level from a window of ADC samples taken
    one per `update()` call (lib/AnalogMicrophoneSensor). The window machine
    has two states, Idle and Sampling (`isSampling`). */
module AnalogMicrophone {
  import opened Timing
  import opened Exceptions
  import opened SensorResult
  import opened SensorContract

  /** `ANALOG_MIC_SAMPLING_DURATION`: both the window length and the pause
      between windows. */
  const SamplingDuration: u32 := 50

  /** `ADC_RESOLUTION`: the largest sample a 12-bit ADC returns. */
  const AdcResolution: u32 := 4095

  /** `VREF_VALUE`. */
  const ReferenceVoltage: real := 3.3

  /** The running statistics of the current window. */
  datatype Accumulators = Accumulators(
    signalMax: u32,
    signalMin: u32,
    sumVrms: real,
    peakVrms: real,
    sampleCount: nat)

  /** `resetSamplingState()`; also the initial values of the fields. */
  const ResetAccumulators := Accumulators(0, AdcResolution, 0.0, 0.0, 0)

  datatype AnalogMicrophoneSensor = AnalogMicrophoneSensor(
    base: SensorBase,
    analogPin: uint8,
    initialized: bool,
    samplingStartTime: u32,
    sampling: bool,
    acc: Accumulators,
    peakToPeak: u32,
    meanDbSpl: real,
    peakDbSpl: real)

  /** The constructor: uninitialised, Idle, reset accumulators, and last
      results of 0.0, so a forced read before any window reports zeros. */
  function Create(name: string, pin: uint8): (m: AnalogMicrophoneSensor)
    ensures m.base == NewBase(name, SamplingDuration)
    ensures !m.initialized && !m.sampling
    ensures m.acc == ResetAccumulators && m.acc.signalMin == 4095
    ensures m.analogPin == pin && m.samplingStartTime == 0 && m.peakToPeak == 0
    ensures m.meanDbSpl == 0.0 && m.peakDbSpl == 0.0
  {
    AnalogMicrophoneSensor(NewBase(name, SamplingDuration), pin, false, 0, false,
                           ResetAccumulators, 0, 0.0, 0.0)
  }

  /** `begin()`: never fails; resets the accumulators but leaves the window
      state and the due timer alone. */
  function Begin(m: AnalogMicrophoneSensor): (r: AnalogMicrophoneSensor)
    ensures r.initialized && r.acc == ResetAccumulators
    ensures r.sampling == m.sampling && r.base == m.base && r.samplingStartTime == m.samplingStartTime
    ensures r.meanDbSpl == m.meanDbSpl && r.peakDbSpl == m.peakDbSpl
  {
    m.(initialized := true, acc := ResetAccumulators)
  }

  /** `|v - vBias|` for one sample, in volts (exact arithmetic). */
  function SampleVrms(sample: u32): (v: real)
    ensures v >= 0.0
  {
    var vAc := sample as real / AdcResolution as real * ReferenceVoltage - ReferenceVoltage / 2.0;
    if vAc < 0.0 then -vAc else vAc
  }

  /** `processSample()`: `sample` is what `analogRead` returns. Samples above
      the ADC range are ignored. */
  function ProcessSample(acc: Accumulators, sample: u32): (r: Accumulators)
    ensures sample > AdcResolution ==> r == acc
    ensures sample <= AdcResolution ==>
              && r.sampleCount == acc.sampleCount + 1
              // the running extremes are the larger (smaller) of the old one and the sample
              && r.signalMin <= sample <= r.signalMax
              && r.signalMin <= acc.signalMin && acc.signalMax <= r.signalMax
              && (r.signalMax == sample || r.signalMax == acc.signalMax)
              && (r.signalMin == sample || r.signalMin == acc.signalMin)
              // the sample's AC amplitude is added to the sum and can raise the peak
              && r.sumVrms == acc.sumVrms + SampleVrms(sample)
              && acc.peakVrms <= r.peakVrms && SampleVrms(sample) <= r.peakVrms
              && (r.peakVrms == SampleVrms(sample) || r.peakVrms == acc.peakVrms)
  {
    if sample > AdcResolution then acc
    else
      var v := SampleVrms(sample);
      Accumulators(
        if sample > acc.signalMax then sample else acc.signalMax,
        if sample < acc.signalMin then sample else acc.signalMin,
        acc.sumVrms + v,
        if v > acc.peakVrms then v else acc.peakVrms,
        acc.sampleCount + 1)
  }

  /** `computeResults()`. `toDb` stands for `20 * log10f(v / vref) + 94`,
      which is not modelled. */
  function ComputeResults(m: AnalogMicrophoneSensor, toDb: real -> real): (r: AnalogMicrophoneSensor)
    ensures r.acc == m.acc && r.sampling == m.sampling && r.base == m.base && r.initialized == m.initialized
    ensures r.peakToPeak == WrapSub(m.acc.signalMax, m.acc.signalMin)
    ensures m.acc.sampleCount == 0 ==> r.meanDbSpl == 0.0
    ensures m.acc.sampleCount > 0 ==>
              var meanVrms := m.acc.sumVrms / m.acc.sampleCount as real;
              r.meanDbSpl == if meanVrms > 0.0 then toDb(meanVrms) else 0.0
    ensures m.acc.peakVrms <= 0.0 ==> r.peakDbSpl == 0.0
    ensures m.acc.peakVrms > 0.0 ==> r.peakDbSpl == toDb(m.acc.peakVrms)
  {
    var a := m.acc;
    var meanVrms := if a.sampleCount > 0 then a.sumVrms / a.sampleCount as real else 0.0;
    m.(peakToPeak := WrapSub(a.signalMax, a.signalMin),
       meanDbSpl := if meanVrms > 0.0 then toDb(meanVrms) else 0.0,
       peakDbSpl := if a.peakVrms > 0.0 then toDb(a.peakVrms) else 0.0)
  }

  /** `update()` at time `now`; `sample` is what `analogRead` would return if
      this call takes a sample. */
  function Update(m: AnalogMicrophoneSensor, now: u32, sample: u32, toDb: real -> real)
    : (t: Transition<AnalogMicrophoneSensor, ()>)
    ensures !m.initialized ==> t == Transition(m, Throw(NotInitializedError))
    ensures m.initialized ==> t.result == Ok(())
    ensures t.next.base.sensorName == m.base.sensorName
    ensures t.next.base.updateInterval == m.base.updateInterval
    ensures t.next.initialized == m.initialized
    // Idle and not yet due: nothing happens.
    ensures m.initialized && !m.sampling && !Due(m.base, now) ==> t.next == m
    // Idle -> Sampling; the opening call already takes a sample.
    ensures m.initialized && !m.sampling && Due(m.base, now) && m.base.updateInterval > 0 ==>
              && t.next.sampling
              && t.next.samplingStartTime == now
              && t.next.acc == ProcessSample(ResetAccumulators, sample)
              && t.next.base == m.base
    // Inside the window: exactly one sample.
    ensures m.initialized && m.sampling && WrapSub(now, m.samplingStartTime) < m.base.updateInterval ==>
              t.next == m.(acc := ProcessSample(m.acc, sample))
    // Sampling -> Idle: results computed, due timer stamped, no sample taken.
    ensures m.initialized && m.sampling && WrapSub(now, m.samplingStartTime) >= m.base.updateInterval ==>
              && !t.next.sampling
              && t.next.base.lastReadTime == now
              && t.next.acc == m.acc
              && t.next == ComputeResults(m, toDb).(sampling := false, base := m.base.(lastReadTime := now))
  {
    if !m.initialized then Transition(m, Throw(NotInitializedError))
    else
      var started := if !m.sampling && Due(m.base, now)
                    then m.(samplingStartTime := now, sampling := true, acc := ResetAccumulators)
                    else m;
      var after :=
        if !started.sampling then started
        else if WrapSub(now, started.samplingStartTime) < started.base.updateInterval
        then started.(acc := ProcessSample(started.acc, sample))
        else ComputeResults(started, toDb).(sampling := false, base := started.base.(lastReadTime := now));
      Transition(after, Ok(()))
  }

  /** `readValues(force, updateReadTime)`: `updateReadTime` is ignored and the
      sensor never changes. The keys "mean_dBSPL" and "peak_dBSPL" are ten
      characters long, so with an 8-byte key buffer the first `set` throws
      and no populated result is ever returned. */
  function ReadValues(m: AnalogMicrophoneSensor, opts: ReadOptions)
    : (t: Transition<AnalogMicrophoneSensor, Snapshot>)
    ensures t.next == m
    ensures !m.initialized ==> t.result == Throw(NotInitializedError)
    ensures m.initialized && m.sampling && !opts.force ==> t.result == Ok(New(m.base.sensorName))
    ensures m.initialized && (!m.sampling || opts.force) ==> t.result == Throw(KeyTooLong)
  {
    if !m.initialized then Transition(m, Throw(NotInitializedError))
    else if m.sampling && !opts.force then Transition(m, Ok(New(m.base.sensorName)))
    else
      var readings := [Entry("mean_dBSPL", m.meanDbSpl), Entry("peak_dBSPL", m.peakDbSpl)];
      Transition(m, SetEach(New(m.base.sensorName), readings))
  }

  /** The samples a sequence of in-window `update()` calls would take,
      accumulated in call order. */
  function Window(acc: Accumulators, samples: seq<u32>): Accumulators
    decreases |samples|
  {
    if |samples| == 0 then acc else Window(ProcessSample(acc, samples[0]), samples[1..])
  }

  /** How many of the samples lie in the ADC range. */
  function Accepted(samples: seq<u32>): nat
    decreases |samples|
  {
    if |samples| == 0 then 0
    else (if samples[0] <= AdcResolution then 1 else 0) + Accepted(samples[1..])
  }

  /** Over a window the sample count grows by the number of in-range
      samples, and every in-range sample lies between the window's minimum
      and maximum. */
  lemma {:induction false} WindowBoundsSamples(acc: Accumulators, samples: seq<u32>)
    ensures Window(acc, samples).sampleCount == acc.sampleCount + Accepted(samples)
    ensures Window(acc, samples).signalMin <= acc.signalMin
    ensures acc.signalMax <= Window(acc, samples).signalMax
    ensures forall i :: 0 <= i < |samples| && samples[i] <= AdcResolution ==>
              Window(acc, samples).signalMin <= samples[i] <= Window(acc, samples).signalMax
    decreases |samples|
  {
    if |samples| > 0 {
      var next := ProcessSample(acc, samples[0]);
      WindowBoundsSamples(next, samples[1..]);
      forall i | 1 <= i < |samples| && samples[i] <= AdcResolution
        ensures Window(acc, samples).signalMin <= samples[i] <= Window(acc, samples).signalMax
      {
        assert samples[1..][i - 1] == samples[i];
      }
    }
  }

  /** The AC amplitudes of the in-range samples, added up. */
  function VrmsSum(samples: seq<u32>): real
    decreases |samples|
  {
    if |samples| == 0 then 0.0
    else (if samples[0] <= AdcResolution then SampleVrms(samples[0]) else 0.0) + VrmsSum(samples[1..])
  }

  /** Over a window the sum grows by exactly the in-range samples'
      amplitudes, the peak is the largest of them (or the old peak), and the
      extremes are in-range samples unless the old extremes still stand. */
  lemma {:induction false} WindowExtremes(acc: Accumulators, samples: seq<u32>)
    ensures var w := Window(acc, samples);
            && w.sumVrms == acc.sumVrms + VrmsSum(samples)
            && acc.peakVrms <= w.peakVrms
            && (forall i :: 0 <= i < |samples| && samples[i] <= AdcResolution ==> SampleVrms(samples[i]) <= w.peakVrms)
            && (w.peakVrms == acc.peakVrms ||
                exists i :: 0 <= i < |samples| && samples[i] <= AdcResolution && SampleVrms(samples[i]) == w.peakVrms)
            && (w.signalMax == acc.signalMax ||
                exists i :: 0 <= i < |samples| && samples[i] <= AdcResolution && samples[i] == w.signalMax)
            && (w.signalMin == acc.signalMin ||
                exists i :: 0 <= i < |samples| && samples[i] <= AdcResolution && samples[i] == w.signalMin)
    decreases |samples|
  {
    if |samples| > 0 {
      var next := ProcessSample(acc, samples[0]);
      var w := Window(acc, samples);
      WindowExtremes(next, samples[1..]);
      assert w == Window(next, samples[1..]);
      forall i | 1 <= i < |samples|
        ensures samples[1..][i - 1] == samples[i]
      {
      }
      if w.peakVrms == next.peakVrms && next.peakVrms != acc.peakVrms {
        assert SampleVrms(samples[0]) == w.peakVrms;
      }
      if w.signalMax == next.signalMax && next.signalMax != acc.signalMax {
        assert samples[0] == w.signalMax;
      }
      if w.signalMin == next.signalMin && next.signalMin != acc.signalMin {
        assert samples[0] == w.signalMin;
      }
    }
  }

  /** Some sample is in range whenever the count of in-range samples is
      positive. */
  lemma {:induction false} AcceptedHasWitness(samples: seq<u32>) returns (k: nat)
    requires Accepted(samples) > 0
    ensures k < |samples| && samples[k] <= AdcResolution
    decreases |samples|
  {
    if samples[0] <= AdcResolution {
      k := 0;
    } else {
      var j := AcceptedHasWitness(samples[1..]);
      k := j + 1;
    }
  }

  /** A window opened with reset accumulators that took at least one sample
      has in-range samples as its maximum and minimum, so `peakToPeak` is
      the spread of the samples taken. */
  lemma ResetWindowExtremesAreSamples(samples: seq<u32>)
    requires Accepted(samples) > 0
    ensures var w := Window(ResetAccumulators, samples);
            && (exists i :: 0 <= i < |samples| && samples[i] <= AdcResolution && samples[i] == w.signalMax)
            && (exists i :: 0 <= i < |samples| && samples[i] <= AdcResolution && samples[i] == w.signalMin)
  {
    var w := Window(ResetAccumulators, samples);
    WindowExtremes(ResetAccumulators, samples);
    WindowBoundsSamples(ResetAccumulators, samples);
    var k := AcceptedHasWitness(samples);
    if w.signalMax == 0 {
      assert samples[k] == w.signalMax;
    }
    if w.signalMin == AdcResolution {
      assert samples[k] == w.signalMin;
    }
  }

  /** `n` copies of `p` added up. */
  function Scaled(n: nat, p: real): real
  {
    if n == 0 then 0.0 else p + Scaled(n - 1, p)
  }

  /** The amplitudes of in-range samples, each at most `p`, add up to at most
      `p` per sample. */
  lemma {:induction false} VrmsSumBounded(samples: seq<u32>, p: real)
    requires forall i :: 0 <= i < |samples| && samples[i] <= AdcResolution ==> SampleVrms(samples[i]) <= p
    ensures VrmsSum(samples) <= Scaled(Accepted(samples), p)
    decreases |samples|
  {
    if |samples| > 0 {
      var rest := samples[1..];
      forall i | 0 <= i < |rest| && rest[i] <= AdcResolution
        ensures SampleVrms(rest[i]) <= p
      {
        assert rest[i] == samples[i + 1];
      }
      VrmsSumBounded(rest, p);
    }
  }

  /** A sum of `n` terms, each at most `p`, averages to at most `p`. */
  lemma {:induction false} MeanBelowBound(sum: real, n: nat, p: real)
    requires n > 0 && sum <= Scaled(n, p)
    ensures sum / n as real <= p
  {
    ScaledIsProduct(n, p);
    assert (sum / n as real) * n as real == sum;
  }

  lemma {:induction false} ScaledIsProduct(n: nat, p: real)
    ensures Scaled(n, p) == n as real * p
  {
    if n > 0 {
      ScaledIsProduct(n - 1, p);
    }
  }

  /** The mean amplitude `computeResults()` turns into the mean level never
      exceeds the peak amplitude, for a window opened with reset
      accumulators. */
  lemma MeanVrmsBoundedByPeak(samples: seq<u32>)
    requires Accepted(samples) > 0
    ensures var w := Window(ResetAccumulators, samples);
            w.sampleCount > 0 && w.sumVrms / w.sampleCount as real <= w.peakVrms
  {
    var w := Window(ResetAccumulators, samples);
    WindowExtremes(ResetAccumulators, samples);
    WindowBoundsSamples(ResetAccumulators, samples);
    VrmsSumBounded(samples, w.peakVrms);
    MeanBelowBound(w.sumVrms, w.sampleCount, w.peakVrms);
  }

  /** After a window opened with reset accumulators, the mean level
      `computeResults()` reports is that of the in-range samples' average
      amplitude, and that average never exceeds the peak amplitude the peak
      level is computed from. */
  lemma WindowLevels(m: AnalogMicrophoneSensor, samples: seq<u32>, toDb: real -> real)
    requires m.acc == Window(ResetAccumulators, samples) && Accepted(samples) > 0
    ensures var r := ComputeResults(m, toDb);
            var mean := VrmsSum(samples) / Accepted(samples) as real;
            && (mean > 0.0 ==> r.meanDbSpl == toDb(mean))
            && (mean <= 0.0 ==> r.meanDbSpl == 0.0)
            && mean <= m.acc.peakVrms
  {
    WindowExtremes(ResetAccumulators, samples);
    WindowBoundsSamples(ResetAccumulators, samples);
    MeanVrmsBoundedByPeak(samples);
  }

  /** Successive `update()` calls at the given times, each offered the
      matching sample. */
  function Run(m: AnalogMicrophoneSensor, times: seq<u32>, samples: seq<u32>, toDb: real -> real)
    : AnalogMicrophoneSensor
    requires |times| == |samples|
    decreases |times|
  {
    if |times| == 0 then m
    else Run(Update(m, times[0], samples[0], toDb).next, times[1..], samples[1..], toDb)
  }

  /** While every call falls inside the open window, the calls take exactly
      the offered samples, in order, and the window stays open. */
  lemma {:induction false} SamplingRunAccumulates(m: AnalogMicrophoneSensor, times: seq<u32>, samples: seq<u32>, toDb: real -> real)
    requires m.initialized && m.sampling && |times| == |samples|
    requires forall i :: 0 <= i < |times| ==> WrapSub(times[i], m.samplingStartTime) < m.base.updateInterval
    ensures Run(m, times, samples, toDb) == m.(acc := Window(m.acc, samples))
    decreases |times|
  {
    if |times| > 0 {
      var next := Update(m, times[0], samples[0], toDb).next;
      assert next == m.(acc := ProcessSample(m.acc, samples[0]));
      assert forall i :: 0 <= i < |times[1..]| ==> times[1..][i] == times[i + 1];
      SamplingRunAccumulates(next, times[1..], samples[1..], toDb);
    }
  }

  /** During an open window a non-forced read reports nothing; once the
      window has closed, any read throws "Key too long". */
  lemma ReadsAroundWindow(m: AnalogMicrophoneSensor, now: u32, sample: u32, toDb: real -> real, opts: ReadOptions)
    requires m.initialized && m.sampling
    ensures WrapSub(now, m.samplingStartTime) < m.base.updateInterval ==>
              ReadValues(Update(m, now, sample, toDb).next, ReadOptions(false, opts.updateReadTime)).result
                == Ok(New(m.base.sensorName))
    ensures WrapSub(now, m.samplingStartTime) >= m.base.updateInterval ==>
              ReadValues(Update(m, now, sample, toDb).next, opts).result == Throw(KeyTooLong)
  {
  }
}

=== FILE: cstrings.dfy ===
/** C strings and character buffers. A string value is the characters before
    the terminating NUL, so `strlen(s)` is `|s|` and `strcmp(a, b) == 0` is
    `a == b`; a buffer is the raw array, NULs included. */
module CStrings {

  /** A string that can stand for a C string: it holds no NUL. */
  predicate NulFree(s: string)
  {
    '\0' !in s
  }

  /** What `strncpy(dst, src, n)` followed by `dst[n] = '\0'` leaves in `dst`:
      the first `n` characters of `src`, or all of it when it is shorter. */
  function Truncate(s: string, n: nat): (t: string)
    ensures |t| <= n
    ensures t <= s
    ensures |s| <= n ==> t == s
    ensures |s| > n ==> |t| == n
  {
    if |s| <= n then s else s[..n]
  }

  /** The C string a buffer holds: its characters before the first NUL, or
      all of them when there is none. */
  function Content(buf: seq<char>): (s: string)
    ensures s <= buf && NulFree(s)
    ensures |s| < |buf| ==> buf[|s|] == '\0'
  {
    if |buf| == 0 || buf[0] == '\0' then [] else [buf[0]] + Content(buf[1..])
  }

  /** `Content` is the only NUL-free prefix that ends at a NUL or at the end
      of the buffer. */
  lemma {:induction false} ContentIsUnique(buf: seq<char>, s: string)
    requires s <= buf && NulFree(s)
    requires |s| < |buf| ==> buf[|s|] == '\0'
    ensures Content(buf) == s
  {
    if |buf| > 0 && buf[0] != '\0' {
      assert |s| > 0;
      ContentIsUnique(buf[1..], s[1..]);
    }
  }

  /** `strncpy(dst, src, n)`: the first `n` characters of `dst` receive the C
      string `src` and, after its end, NULs; the rest of `dst` is untouched. */
  function Strncpy(dst: seq<char>, src: seq<char>, n: nat): (r: seq<char>)
    requires n <= |dst|
    ensures |r| == |dst| && r[n..] == dst[n..]
    ensures forall i :: 0 <= i < n ==>
              r[i] == if i < |Content(src)| then Content(src)[i] else '\0'
  {
    var c := Content(src);
    var k := if |c| < n then |c| else n;
    c[..k] + seq(n - k, _ => '\0') + dst[n..]
  }
}

=== FILE: exceptions.dfy ===
/** The C++ exceptions thrown and caught by the sensor core, with the class
    hierarchy that decides which `catch` clause intercepts which exception
    (include/SensorExceptions.h and the standard classes it builds on). */
module Exceptions {

  datatype Option<+T> = None | Some(value: T)

  /** The outcome of a call that returns a `T` or throws. */
  datatype Outcome<+T> = Ok(value: T) | Throw(error: Exception)

  /** The exception classes involved. */
  datatype ExceptionType =
    | StdException          // std::exception
    | LogicError            // std::logic_error
    | RuntimeError          // std::runtime_error
    | InvalidArgument       // std::invalid_argument
    | OutOfRange            // std::out_of_range
    | SensorException
    | SensorNotInitialized  // SensorNotInitializedException
    | SensorInitialization  // SensorInitializationException
    | SensorRead            // SensorReadException
    | KeyNotFound           // KeyNotFoundException

  /** A thrown exception: its dynamic class and its `what()` text. */
  datatype Exception = Exception(kind: ExceptionType, what: string)

  /** Distance from `std::exception` in the hierarchy. */
  function Depth(t: ExceptionType): nat
  {
    match t
    case StdException => 0
    case LogicError | RuntimeError => 1
    case InvalidArgument | OutOfRange | SensorException => 2
    case SensorNotInitialized | SensorInitialization | SensorRead | KeyNotFound => 3
  }

  /** The direct public base class of each class. */
  function Base(t: ExceptionType): (b: Option<ExceptionType>)
    ensures b.None? <==> t == StdException
    ensures b.Some? ==> Depth(b.value) + 1 == Depth(t)
  {
    match t
    case StdException => None
    case LogicError | RuntimeError => Some(StdException)
    case InvalidArgument | OutOfRange => Some(LogicError)
    case SensorException => Some(RuntimeError)
    case SensorNotInitialized | SensorInitialization | SensorRead => Some(SensorException)
    case KeyNotFound => Some(OutOfRange)
  }

  /** `t` is `ancestor` or publicly derives from it. */
  predicate DerivesFrom(t: ExceptionType, ancestor: ExceptionType)
    decreases Depth(t)
  {
    t == ancestor || (Base(t).Some? && DerivesFrom(Base(t).value, ancestor))
  }

  /** A handler `catch (const handler& e)` intercepts `e`. */
  predicate Catches(handler: ExceptionType, e: Exception)
  {
    DerivesFrom(e.kind, handler)
  }

  const NotInitializedError := Exception(SensorNotInitialized, "Sensor not initialized")

  /** `KeyNotFoundException(key)`. */
  function KeyNotFoundError(key: string): (e: Exception)
    ensures e.kind == KeyNotFound
    ensures |e.what| == 15 + |key| && e.what[..15] == "Key not found: " && e.what[15..] == key
  {
    Exception(KeyNotFound, "Key not found: " + key)
  }

  /** Derivation is transitive, so handlers for a base class also catch
      everything derived from a class derived from it. */
  lemma {:induction false} DerivesFromTransitive(a: ExceptionType, b: ExceptionType, c: ExceptionType)
    requires DerivesFrom(a, b) && DerivesFrom(b, c)
    ensures DerivesFrom(a, c)
    decreases Depth(a)
  {
    if a != b {
      DerivesFromTransitive(Base(a).value, b, c);
    }
  }

  /** Everything `t` derives from, listed. */
  lemma AncestorsOf(t: ExceptionType, u: ExceptionType)
    requires DerivesFrom(t, u)
    ensures t == KeyNotFound ==> u in {KeyNotFound, OutOfRange, LogicError, StdException}
    ensures t == OutOfRange ==> u in {OutOfRange, LogicError, StdException}
    ensures t == InvalidArgument ==> u in {InvalidArgument, LogicError, StdException}
    ensures t in {SensorNotInitialized, SensorInitialization, SensorRead} ==>
              u in {t, SensorException, RuntimeError, StdException}
  {
  }

  /** The three sensor failures are all `SensorException`s and
      `std::runtime_error`s. */
  lemma SensorFailuresAreSensorExceptions(t: ExceptionType)
    requires t in {SensorNotInitialized, SensorInitialization, SensorRead}
    ensures DerivesFrom(t, SensorException) && DerivesFrom(t, RuntimeError)
  {
  }

  /** `KeyNotFoundException` is an `std::out_of_range`; neither it nor the other
      snapshot-container errors is caught by any handler naming a sensor
      exception class. */
  lemma ContainerErrorsEscapeSensorHandlers(handler: ExceptionType, e: Exception)
    requires DerivesFrom(handler, SensorException)
    requires e.kind in {InvalidArgument, OutOfRange, KeyNotFound}
    ensures !Catches(handler, e)
    ensures e.kind == KeyNotFound ==> Catches(OutOfRange, e)
  {
    if Catches(handler, e) {
      AncestorsOf(e.kind, handler);
      DerivesFromTransitive(e.kind, handler, SensorException);
      AncestorsOf(e.kind, SensorException);
      assert false;
    }
  }

  /** The three sensor failures are siblings: a handler for one of them does
      not intercept another. */
  lemma SensorHandlersAreExclusive(handler: ExceptionType, e: Exception)
    requires handler in {SensorNotInitialized, SensorInitialization, SensorRead}
    requires e.kind in {SensorNotInitialized, SensorInitialization, SensorRead}
    ensures Catches(handler, e) <==> handler == e.kind
  {
    if Catches(handler, e) && handler != e.kind {
      AncestorsOf(e.kind, handler);
      assert false;
    }
  }
}

=== FILE: generic_analog_input.dfy ===
/** `GenericAnalogInputSensor`: one analog pin read on demand
    (lib/GenericAnalogInputSensor). */
module GenericAnalogInput {
  import opened Timing
  import opened Exceptions
  import opened SensorResult
  import opened SensorContract

  const DefaultInterval: u32 := 60000
  const DefaultReferenceVoltage: real := 3.3

  /** Full scale of the 12-bit ADC. */
  const AdcFullScale: real := 4095.0

  datatype GenericAnalogInputSensor = GenericAnalogInputSensor(
    base: SensorBase,
    analogPin: uint8,
    referenceVoltage: real,
    initialized: bool)

  /** The constructor: name and interval go to the base unchanged. */
  function Create(name: string, pin: uint8, vRef: real := DefaultReferenceVoltage,
                  interval: u32 := DefaultInterval): (s: GenericAnalogInputSensor)
    ensures s.base == NewBase(name, interval)
    ensures s.analogPin == pin && s.referenceVoltage == vRef
    ensures !s.initialized
  {
    GenericAnalogInputSensor(NewBase(name, interval), pin, vRef, false)
  }

  /** The defaults: 3.3 V reference and a 60 s interval. */
  lemma CreateDefaults(name: string, pin: uint8)
    ensures Create(name, pin).referenceVoltage == 3.3
    ensures Create(name, pin).base.updateInterval == 60000
  {
  }

  /** `begin()` never fails. */
  function Begin(s: GenericAnalogInputSensor): (r: GenericAnalogInputSensor)
    ensures r.initialized
    ensures r.base == s.base && r.analogPin == s.analogPin && r.referenceVoltage == s.referenceVoltage
  {
    s.(initialized := true)
  }

  /** `update()`: nothing to do once initialised. */
  function Update(s: GenericAnalogInputSensor): (r: Outcome<()>)
    ensures r.Throw? <==> !s.initialized
    ensures r.Throw? ==> r.error == NotInitializedError
  {
    if !s.initialized then Throw(NotInitializedError) else Ok(())
  }

  /** The ADC reading scaled to volts (exact; float rounding is not modelled). */
  function Voltage(raw: int, vRef: real): real
  {
    raw as real / AdcFullScale * vRef
  }

  /** `readValues(force, updateReadTime)`; `raw` is what `analogRead` returns. */
  function ReadValues(s: GenericAnalogInputSensor, opts: ReadOptions, now: u32, raw: int)
    : (t: Transition<GenericAnalogInputSensor, Snapshot>)
    ensures !s.initialized ==> t == Transition(s, Throw(NotInitializedError))
    ensures s.initialized && Withheld(s.base, opts, now) ==>
              t == Transition(s, Ok(New(s.base.sensorName)))
    ensures s.initialized && !Withheld(s.base, opts, now) ==>
              && t.next == s.(base := Stamp(s.base, opts, now))
              && t.result.Ok?
              && t.result.value.sensorName == s.base.sensorName
              && Keys(t.result.value.entries) == ["voltage", "raw"]
              && t.result.value.entries[0].value == Voltage(raw, s.referenceVoltage)
              && t.result.value.entries[1].value == raw as real
    ensures t.result.Ok? ==> Valid(t.result.value)
  {
    if !s.initialized then Transition(s, Throw(NotInitializedError))
    else if Withheld(s.base, opts, now) then Transition(s, Ok(New(s.base.sensorName)))
    else
      var readings := [Entry("voltage", Voltage(raw, s.referenceVoltage)), Entry("raw", raw as real)];
      var empty: Snapshot := New(s.base.sensorName);
      SetEachAppends(empty, readings);
      Transition(s.(base := Stamp(s.base, opts, now)), SetEach(empty, readings))
  }
}

=== FILE: mpu6050.dfy ===
/** `MPU6050Sensor`: accelerometer and gyroscope with a retrying handshake and
    automatic recalibration after sustained drift (lib/MPU6050Sensor). */
module MPU6050 {
  import opened Timing
  import opened Exceptions
  import opened SensorResult
  import opened SensorContract

  const DefaultInterval: u32 := 200

  /** `max_attempts` in `begin()`. */
  const MaxAttempts: nat := 5

  /** `durationMs` in `update()`: how long a deviation must last before it
      triggers a recalibration. */
  const DriftDuration: u32 := 2000

  const InitializationFailure :=
    Exception(SensorInitialization, "MPU6050 initialization failed after multiple attempts")
  const ReadFailure := Exception(SensorRead, "Failed to read sensor data")

  /** Per-axis offsets subtracted from the raw readings. */
  datatype Offsets = Offsets(ax: real, ay: real, az: real, gx: real, gy: real, gz: real)

  const ZeroOffsets := Offsets(0.0, 0.0, 0.0, 0.0, 0.0, 0.0)

  /** One `getEvent` sample: acceleration, rotation and temperature. */
  datatype Motion = Motion(ax: real, ay: real, az: real, gx: real, gy: real, gz: real, temperature: real)

  /** `calibrations` counts the calibration passes run so far, so that a
      calibration is an observable event. */
  datatype MPU6050Sensor = MPU6050Sensor(
    base: SensorBase,
    initialized: bool,
    offsets: Offsets,
    calibrations: nat)

  /** The function-static `thresholdStartTime` and `thresholdExceeded` of
      `update()`. Being static, one copy serves every MPU6050 instance.
      A start time of 0 means the timer is not running. */
  datatype DriftTimer = DriftTimer(startTime: u32, exceeded: bool)

  const IdleTimer := DriftTimer(0, false)

  /** The constructor. */
  function Create(name: string, interval: u32 := DefaultInterval): (s: MPU6050Sensor)
    ensures s.base == NewBase(name, interval)
    ensures !s.initialized && s.offsets == ZeroOffsets && s.calibrations == 0
  {
    MPU6050Sensor(NewBase(name, interval), false, ZeroOffsets, 0)
  }

  lemma CreateDefaults(name: string)
    ensures Create(name).base.updateInterval == 200
  {
  }

  /** The six calibrated axes. */
  datatype Axis = AccelX | AccelY | AccelZ | GyroX | GyroY | GyroZ

  function Component(m: Motion, axis: Axis): real
  {
    match axis
    case AccelX => m.ax case AccelY => m.ay case AccelZ => m.az
    case GyroX => m.gx case GyroY => m.gy case GyroZ => m.gz
  }

  /** `samples` in `calibrate()`: reads per calibration pass. */
  const CalibrationSamples: nat := 1000

  /** Standard gravity, removed from the z offset. */
  const Gravity: real := 9.80665

  /** The `i`-th `getEvent` of a calibration pass; `None` is a failed read,
      and so is every read past the end of `samples`. */
  function Sample(samples: seq<Option<Motion>>, i: nat): Option<Motion>
  {
    if i < |samples| then samples[i] else None
  }

  /** Sum of `axis` over the successful reads among reads `i` to 999. */
  function SumFrom(samples: seq<Option<Motion>>, axis: Axis, i: nat): real
    requires i <= CalibrationSamples
    decreases CalibrationSamples - i
  {
    if i == CalibrationSamples then 0.0
    else
      (match Sample(samples, i) case None => 0.0 case Some(m) => Component(m, axis))
      + SumFrom(samples, axis, i + 1)
  }

  function Sum(samples: seq<Option<Motion>>, axis: Axis): real
  {
    SumFrom(samples, axis, 0)
  }

  /** A reading that stays at `axis(m)` from read `i` on contributes it once
      per remaining read. */
  lemma {:induction false} SteadySum(samples: seq<Option<Motion>>, axis: Axis, m: Motion, i: nat)
    requires i <= CalibrationSamples
    requires forall j :: i <= j < CalibrationSamples ==> Sample(samples, j) == Some(m)
    ensures SumFrom(samples, axis, i) == (CalibrationSamples - i) as real * Component(m, axis)
    decreases CalibrationSamples - i
  {
    if i < CalibrationSamples {
      SteadySum(samples, axis, m, i + 1);
    }
  }

  /** The offsets one calibration pass should yield: the mean of each axis
      over the 1000 reads (a failed read counting as zero), with gravity
      removed from z. */
  function MeanOffsets(samples: seq<Option<Motion>>): Offsets
  {
    var n := CalibrationSamples as real;
    Offsets(
      Sum(samples, AccelX) / n, Sum(samples, AccelY) / n,
      Sum(samples, AccelZ) / n - Gravity,
      Sum(samples, GyroX) / n, Sum(samples, GyroY) / n, Sum(samples, GyroZ) / n)
  }

  /** The arithmetic `calibrate()` performs: the reads are added to the
      offsets already in place, which are never reset. */
  function AccumulatedOffsets(prev: Offsets, samples: seq<Option<Motion>>): Offsets
  {
    var n := CalibrationSamples as real;
    Offsets(
      (prev.ax + Sum(samples, AccelX)) / n, (prev.ay + Sum(samples, AccelY)) / n,
      (prev.az + Sum(samples, AccelZ)) / n - Gravity,
      (prev.gx + Sum(samples, GyroX)) / n, (prev.gy + Sum(samples, GyroY)) / n,
      (prev.gz + Sum(samples, GyroZ)) / n)
  }

  /** The accumulation differs from the mean by a thousandth of the offsets
      in place before the pass. */
  lemma AccumulatedOffsetsLeakPrevious(prev: Offsets, samples: seq<Option<Motion>>)
    ensures AccumulatedOffsets(prev, samples)
              == var mean := MeanOffsets(samples);
                 var k := CalibrationSamples as real;
                 Offsets(mean.ax + prev.ax / k, mean.ay + prev.ay / k, mean.az + prev.az / k,
                         mean.gx + prev.gx / k, mean.gy + prev.gy / k, mean.gz + prev.gz / k)
  {
  }

  /** A second calibration at rest, with the x axis steady at 1.0 and the
      first pass having set the x offset to 1.0, moves that offset to 1.001
      instead of leaving it at 1.0. */
  lemma RecalibrationAtRestDrifts(prev: Offsets, m: Motion, samples: seq<Option<Motion>>)
    requires prev.ax == 1.0 && m.ax == 1.0
    requires |samples| == CalibrationSamples && forall j :: 0 <= j < |samples| ==> samples[j] == Some(m)
    ensures AccumulatedOffsets(prev, samples).ax == 1.001
    ensures MeanOffsets(samples).ax == 1.0
  {
    SteadyMean(samples, AccelX, m);
  }

  /** Over a pass whose 1000 reads all succeed with the same sample `m`, an
      axis averages to that sample's component. */
  lemma SteadyMean(samples: seq<Option<Motion>>, axis: Axis, m: Motion)
    requires |samples| == CalibrationSamples && forall j :: 0 <= j < |samples| ==> samples[j] == Some(m)
    ensures Sum(samples, axis) / CalibrationSamples as real == Component(m, axis)
  {
    SteadySum(samples, axis, m, 0);
  }

  /** With the offsets reset before the pass, the offsets follow the reads
      alone: a sensor at rest reading `m` on every read gets exactly `m` (z
      less gravity) as its offsets, whatever they were before. */
  lemma CalibrationAtRestMatchesReading(m: Motion, samples: seq<Option<Motion>>)
    requires |samples| == CalibrationSamples && forall j :: 0 <= j < |samples| ==> samples[j] == Some(m)
    ensures MeanOffsets(samples) == Offsets(m.ax, m.ay, m.az - Gravity, m.gx, m.gy, m.gz)
  {
    SteadyMean(samples, AccelX, m);
    SteadyMean(samples, AccelY, m);
    SteadyMean(samples, AccelZ, m);
    SteadyMean(samples, GyroX, m);
    SteadyMean(samples, GyroY, m);
    SteadyMean(samples, GyroZ, m);
  }

  /** `calibrate()` with the offsets reset before the pass, so that they are
      the mean the class comment promises; `samples` are the 1000 `getEvent`
      reads. The written code omits the reset (`AccumulatedOffsets`). */
  function Calibrate(s: MPU6050Sensor, samples: seq<Option<Motion>>): (t: Transition<MPU6050Sensor, ()>)
    ensures !s.initialized ==> t == Transition(s, Throw(NotInitializedError))
    ensures s.initialized ==> t.result == Ok(())
    ensures s.initialized ==> t.next == s.(offsets := MeanOffsets(samples), calibrations := s.calibrations + 1)
  {
    if !s.initialized then Transition(s, Throw(NotInitializedError))
    else Transition(s.(offsets := MeanOffsets(samples), calibrations := s.calibrations + 1), Ok(()))
  }

  /** With the reset, calibrating twice on the same reads gives the same
      offsets as once. */
  lemma RecalibrationIsStable(s: MPU6050Sensor, samples: seq<Option<Motion>>)
    requires s.initialized
    ensures Calibrate(Calibrate(s, samples).next, samples).next.offsets == Calibrate(s, samples).next.offsets
  {
  }

  /** From zero offsets the accumulation is the mean, so the corrected and
      the written `calibrate()` agree on a sensor's first pass. */
  lemma FirstCalibrationAgrees(samples: seq<Option<Motion>>)
    ensures AccumulatedOffsets(ZeroOffsets, samples) == MeanOffsets(samples)
  {
    AccumulatedOffsetsLeakPrevious(ZeroOffsets, samples);
  }

  /** The first `begin()` of a freshly constructed sensor stores exactly what
      the written code stores. */
  lemma FirstBeginMatchesWrittenCalibration(name: string, interval: u32, handshake: seq<bool>, samples: seq<Option<Motion>>)
    ensures var t := Begin(Create(name, interval), handshake, samples);
            t.result.Ok? ==> t.next.offsets == AccumulatedOffsets(Create(name, interval).offsets, samples)
  {
    FirstCalibrationAgrees(samples);
  }

  /** Every later pass of the written code lands a thousandth of the previous
      offsets away from what `Calibrate` stores. */
  lemma CalibrateVersusWritten(s: MPU6050Sensor, samples: seq<Option<Motion>>)
    requires s.initialized
    ensures var c := Calibrate(s, samples).next.offsets;
            var k := CalibrationSamples as real;
            AccumulatedOffsets(s.offsets, samples)
              == Offsets(c.ax + s.offsets.ax / k, c.ay + s.offsets.ay / k, c.az + s.offsets.az / k,
                         c.gx + s.offsets.gx / k, c.gy + s.offsets.gy / k, c.gz + s.offsets.gz / k)
  {
    AccumulatedOffsetsLeakPrevious(s.offsets, samples);
  }

  /** The `attempts`-th call of `mpu.begin()` succeeds; calls past the end of
      `handshake` fail. */
  predicate Handshake(handshake: seq<bool>, attempts: nat)
  {
    attempts < |handshake| && handshake[attempts]
  }

  /** The retry loop of `begin()` from `attempts` failures on: the number of
      failed attempts when the loop exits. */
  function Attempts(handshake: seq<bool>, attempts: nat): (n: nat)
    requires attempts <= MaxAttempts
    ensures attempts <= n <= MaxAttempts
    ensures forall j :: attempts <= j < n ==> !Handshake(handshake, j)
    ensures n < MaxAttempts ==> Handshake(handshake, n)
    decreases MaxAttempts - attempts
  {
    if attempts < MaxAttempts && !Handshake(handshake, attempts) then Attempts(handshake, attempts + 1)
    else attempts
  }

  /** `begin()`: at most five handshakes. After the first success the sensor
      is initialised and calibrated once; if all five fail it is left
      uninitialised and `SensorInitializationException` is thrown. */
  function Begin(s: MPU6050Sensor, handshake: seq<bool>, samples: seq<Option<Motion>>): (t: Transition<MPU6050Sensor, ()>)
    ensures t.result.Ok? <==> exists j :: 0 <= j < MaxAttempts && Handshake(handshake, j)
    ensures t.result.Ok? ==> t.next == s.(initialized := true, offsets := MeanOffsets(samples), calibrations := s.calibrations + 1)
    ensures t.result.Throw? ==> t.next == s.(initialized := false) && t.result.error == InitializationFailure
  {
    var failed := Attempts(handshake, 0);
    if failed == MaxAttempts then Transition(s.(initialized := false), Throw(InitializationFailure))
    else Calibrate(s.(initialized := true), samples)
  }

  /** `update()`. `readOk` is whether `getEvent` succeeds; `exceeded` is
      whether some offset-corrected axis lies outside the 0.1 deadband (the
      float comparison is not modelled); `samples` are the reads of the calibration pass
      a sustained deviation triggers. */
  function Update(s: MPU6050Sensor, timer: DriftTimer, now: u32, readOk: bool, exceeded: bool, samples: seq<Option<Motion>>)
    : (t: Transition<(MPU6050Sensor, DriftTimer), ()>)
    ensures !s.initialized ==> t == Transition((s, timer), Throw(NotInitializedError))
    ensures s.initialized ==> t.result == Ok(())
    ensures t.next.0.base == s.base && t.next.0.initialized == s.initialized
    // A failed hardware read changes nothing.
    ensures s.initialized && !readOk ==> t.next == (s, timer)
    // Inside the deadband the timer stops.
    ensures s.initialized && readOk && !exceeded ==> t.next == (s, DriftTimer(0, false))
    // A deviation with no timer running starts it, and nothing else.
    ensures s.initialized && readOk && exceeded && timer.startTime == 0 ==>
              t.next == (s, DriftTimer(now, true))
    // A deviation not yet lasting 2 s changes nothing but the flag.
    ensures s.initialized && readOk && exceeded && timer.startTime != 0 && WrapSub(now, timer.startTime) < DriftDuration ==>
              t.next == (s, timer.(exceeded := true))
    // A deviation lasting 2 s runs exactly one calibration and stops the timer.
    ensures s.initialized && readOk && exceeded && timer.startTime != 0 && WrapSub(now, timer.startTime) >= DriftDuration ==>
              t.next == (s.(offsets := MeanOffsets(samples), calibrations := s.calibrations + 1), IdleTimer)
  {
    if !s.initialized then Transition((s, timer), Throw(NotInitializedError))
    else if !readOk then Transition((s, timer), Ok(()))
    else if !exceeded then Transition((s, DriftTimer(0, false)), Ok(()))
    else if timer.startTime == 0 then Transition((s, DriftTimer(now, true)), Ok(()))
    else if WrapSub(now, timer.startTime) < DriftDuration then Transition((s, timer.(exceeded := true)), Ok(()))
    else Transition((Calibrate(s, samples).next, IdleTimer), Ok(()))
  }

  /** `readValues(force, updateReadTime)`; `motion` is the `getEvent` sample,
      `None` when the read fails. The due timer is stamped before the read,
      so a failed read still consumes it. */
  function ReadValues(s: MPU6050Sensor, opts: ReadOptions, now: u32, motion: Option<Motion>)
    : (t: Transition<MPU6050Sensor, Snapshot>)
    ensures !s.initialized ==> t == Transition(s, Throw(NotInitializedError))
    ensures s.initialized && Withheld(s.base, opts, now) ==> t == Transition(s, Ok(New(s.base.sensorName)))
    ensures s.initialized && !Withheld(s.base, opts, now) ==> t.next == s.(base := Stamp(s.base, opts, now))
    ensures s.initialized && !Withheld(s.base, opts, now) && motion.None? ==> t.result == Throw(ReadFailure)
    ensures s.initialized && !Withheld(s.base, opts, now) && motion.Some? ==>
              && t.result.Ok?
              && t.result.value.sensorName == s.base.sensorName
              // Each axis less its offset; `az` keeps gravity, since only its
              // offset was taken relative to it.
              && var e := motion.value;
                 t.result.value.entries == [
                   Entry("ax", e.ax - s.offsets.ax), Entry("ay", e.ay - s.offsets.ay),
                   Entry("az", e.az - s.offsets.az), Entry("gx", e.gx - s.offsets.gx),
                   Entry("gy", e.gy - s.offsets.gy), Entry("gz", e.gz - s.offsets.gz),
                   Entry("temp", e.temperature)]
    ensures t.result.Ok? ==> Valid(t.result.value)
  {
    if !s.initialized then Transition(s, Throw(NotInitializedError))
    else if Withheld(s.base, opts, now) then Transition(s, Ok(New(s.base.sensorName)))
    else
      var stamped := s.(base := Stamp(s.base, opts, now));
      match motion
      case None => Transition(stamped, Throw(ReadFailure))
      case Some(e) =>
        var o := s.offsets;
        var readings := [
          Entry("ax", e.ax - o.ax), Entry("ay", e.ay - o.ay), Entry("az", e.az - o.az),
          Entry("gx", e.gx - o.gx), Entry("gy", e.gy - o.gy), Entry("gz", e.gz - o.gz),
          Entry("temp", e.temperature)];
        var empty: Snapshot := New(s.base.sensorName);
        SetEachAppends(empty, readings);
        Transition(stamped, SetEach(empty, readings))
  }

  /** With the offsets a calibration at rest on sample `m` leaves
      (`CalibrationAtRestMatchesReading`), a read of that same sample reports
      zero on every axis but `az`, which reads gravity: `readValues()`
      subtracts the offset only, while `update()` also takes gravity off. */
  lemma ReadAtRestReportsGravityOnZ(s: MPU6050Sensor, opts: ReadOptions, now: u32, m: Motion)
    requires s.initialized && !Withheld(s.base, opts, now)
    requires s.offsets == Offsets(m.ax, m.ay, m.az - Gravity, m.gx, m.gy, m.gz)
    ensures ReadValues(s, opts, now, Some(m)).result.value.entries == [
              Entry("ax", 0.0), Entry("ay", 0.0), Entry("az", Gravity), Entry("gx", 0.0),
              Entry("gy", 0.0), Entry("gz", 0.0), Entry("temp", m.temperature)]
  {
  }

  /** One `update()` call's inputs. */
  datatype Poll = Poll(now: u32, readOk: bool, exceeded: bool, samples: seq<Option<Motion>>)

  /** Successive `update()` calls of an initialised sensor. */
  function Polls(s: MPU6050Sensor, timer: DriftTimer, polls: seq<Poll>): (r: (MPU6050Sensor, DriftTimer))
    requires s.initialized
    ensures r.0.initialized
    decreases |polls|
  {
    if |polls| == 0 then (s, timer)
    else
      var p := polls[0];
      var t := Update(s, timer, p.now, p.readOk, p.exceeded, p.samples);
      Polls(t.next.0, t.next.1, polls[1..])
  }

  /** While every successful read stays inside the deadband, no number of
      `update()` calls ever recalibrates. */
  lemma {:induction false} AtRestNeverRecalibrates(s: MPU6050Sensor, timer: DriftTimer, polls: seq<Poll>)
    requires s.initialized
    requires forall i :: 0 <= i < |polls| ==> !polls[i].readOk || !polls[i].exceeded
    ensures Polls(s, timer, polls).0 == s
    decreases |polls|
  {
    if |polls| > 0 {
      var p := polls[0];
      var t := Update(s, timer, p.now, p.readOk, p.exceeded, p.samples);
      assert t.next.0 == s;
      assert forall i :: 0 <= i < |polls[1..]| ==> polls[1..][i] == polls[i + 1];
      AtRestNeverRecalibrates(s, t.next.1, polls[1..]);
    }
  }

  /** Each `update()` call runs at most one calibration, so the number of
      calibrations over a run never exceeds the number of calls. */
  lemma {:induction false} CalibrationsBoundedByPolls(s: MPU6050Sensor, timer: DriftTimer, polls: seq<Poll>)
    requires s.initialized
    ensures s.calibrations <= Polls(s, timer, polls).0.calibrations <= s.calibrations + |polls|
    decreases |polls|
  {
    if |polls| > 0 {
      var p := polls[0];
      var t := Update(s, timer, p.now, p.readOk, p.exceeded, p.samples);
      CalibrationsBoundedByPolls(t.next.0, t.next.1, polls[1..]);
    }
  }

  /** A deviation seen at a nonzero time and still present at least 2 s
      later, with successful reads, triggers exactly one calibration and
      leaves the timer stopped. */
  lemma SustainedDeviationRecalibratesOnce(s: MPU6050Sensor, t0: u32, t1: u32, f0: seq<Option<Motion>>, f1: seq<Option<Motion>>)
    requires s.initialized && t0 != 0 && WrapSub(t1, t0) >= DriftDuration
    ensures Polls(s, IdleTimer, [Poll(t0, true, true, f0), Poll(t1, true, true, f1)])
              == (s.(offsets := MeanOffsets(f1), calibrations := s.calibrations + 1), IdleTimer)
  {
    var p := [Poll(t0, true, true, f0), Poll(t1, true, true, f1)];
    var first := Update(s, IdleTimer, t0, true, true, f0).next;
    assert first == (s, DriftTimer(t0, true));
    assert p[1..] == [Poll(t1, true, true, f1)];
    assert Polls(s, IdleTimer, p) == Polls(first.0, first.1, p[1..]);
    var second := Update(first.0, first.1, t1, true, true, f1).next;
    assert p[1..][1..] == [];
    assert Polls(first.0, first.1, p[1..]) == Polls(second.0, second.1, []);
  }

  /** Start time 0 doubles as "not running": a deviation first seen at
      `millis() == 0` leaves a timer that the next deviation restarts. */
  lemma DeviationAtTimeZeroRestartsTimer(s: MPU6050Sensor, t1: u32, f: seq<Option<Motion>>)
    requires s.initialized
    ensures Polls(s, IdleTimer, [Poll(0, true, true, f), Poll(t1, true, true, f)])
              == (s, DriftTimer(t1, true))
  {
    var p := [Poll(0, true, true, f), Poll(t1, true, true, f)];
    var first := Update(s, IdleTimer, 0, true, true, f).next;
    assert first == (s, DriftTimer(0, true));
    assert p[1..] == [Poll(t1, true, true, f)];
    assert Polls(s, IdleTimer, p) == Polls(first.0, first.1, p[1..]);
    var second := Update(first.0, first.1, t1, true, true, f).next;
    assert p[1..][1..] == [];
    assert Polls(first.0, first.1, p[1..]) == Polls(second.0, second.1, []);
  }
}

=== FILE: mq135.dfy ===
/** `MQ135Sensor`: an air-quality sensor reporting six gas concentrations
    (lib/MQ135Sensor). */
module MQ135 {
  import opened Timing
  import opened Exceptions
  import opened SensorResult
  import opened SensorContract

  const DefaultInterval: u32 := 60000

  /** The six concentrations the regression library reports, in ppm; the
      regression itself is not modelled. */
  datatype GasReadings = GasReadings(co: real, alcohol: real, co2: real, toluene: real, nh4: real, acetone: real)

  datatype MQ135Sensor = MQ135Sensor(base: SensorBase, pin: uint8, initialized: bool)

  /** The constructor. */
  function Create(name: string, pin: uint8, interval: u32 := DefaultInterval): (s: MQ135Sensor)
    ensures s.base == NewBase(name, interval) && s.pin == pin && !s.initialized
  {
    MQ135Sensor(NewBase(name, interval), pin, false)
  }

  lemma CreateDefaults(name: string, pin: uint8)
    ensures Create(name, pin).base.updateInterval == 60000
  {
  }

  /** `begin()`: never throws; a second call changes nothing. */
  function Begin(s: MQ135Sensor): (r: MQ135Sensor)
    ensures r.initialized && r.base == s.base && r.pin == s.pin
    ensures s.initialized ==> r == s
  {
    if s.initialized then s else s.(initialized := true)
  }

  lemma BeginIsIdempotent(s: MQ135Sensor)
    ensures Begin(Begin(s)) == Begin(s)
  {
  }

  /** `update()`: before `begin()` it only logs; it never throws. */
  function Update(s: MQ135Sensor): (r: Outcome<()>)
    ensures r.Ok?
  {
    Ok(())
  }

  /** `readValues(force, updateReadTime)`; `gas` is what the six regression
      reads return. */
  function ReadValues(s: MQ135Sensor, opts: ReadOptions, now: u32, gas: GasReadings)
    : (t: Transition<MQ135Sensor, Snapshot>)
    ensures !s.initialized ==> t == Transition(s, Throw(NotInitializedError))
    ensures s.initialized && Withheld(s.base, opts, now) ==> t == Transition(s, Ok(New(s.base.sensorName)))
    ensures s.initialized && !Withheld(s.base, opts, now) ==>
              && t.next == s.(base := Stamp(s.base, opts, now))
              && t.result.Ok?
              && t.result.value.sensorName == s.base.sensorName
              && t.result.value.entries == [
                   Entry("CO", gas.co), Entry("Alcohol", gas.alcohol), Entry("CO2", gas.co2),
                   Entry("Toluen", gas.toluene), Entry("NH4", gas.nh4), Entry("Aceton", gas.acetone)]
    ensures t.result.Ok? ==> Valid(t.result.value)
  {
    if !s.initialized then Transition(s, Throw(NotInitializedError))
    else if Withheld(s.base, opts, now) then Transition(s, Ok(New(s.base.sensorName)))
    else
      var readings := [
        Entry("CO", gas.co), Entry("Alcohol", gas.alcohol), Entry("CO2", gas.co2),
        Entry("Toluen", gas.toluene), Entry("NH4", gas.nh4), Entry("Aceton", gas.acetone)];
      var empty: Snapshot := New(s.base.sensorName);
      SetEachAppends(empty, readings);
      Transition(s.(base := Stamp(s.base, opts, now)), SetEach(empty, readings))
  }
}

=== FILE: result_code.dfy ===
/** Result codes, the process-wide last-error buffer and the `Result<T>`
    wrapper (include/ResultCode.h, src/ResultCode.cpp). */
module ResultCodes {
  import opened CStrings
  import opened Exceptions

  /** `MAX_ERROR_MESSAGE_LEN`: size of the last-error buffer, terminator included. */
  const MaxErrorMessageLen: nat := 128

  /** The enumerators of `enum class ResultCode`, in declaration order. */
  datatype ResultCode =
    | OK
    | NullArgumentException
    | InvalidArgumentException
    | ArgumentOutOfRangeException
    | OutOfMemoryException
    | IndexOutOfRangeException
    | InvalidOperationException
    | NotSupportedException
    | KeyNotFoundException
    | DuplicateKeyException
    | OverflowException
    | UnderflowException
    | DivisionByZeroException
    | FormatException
    | TimeoutException
    | UnknownException

  /** The enumerator an integer stands for, if any: `OK = 0`, then
      consecutive values in declaration order. */
  function Enumerator(v: int): Option<ResultCode>
  {
    match v
    case 0 => Some(OK)
    case 1 => Some(NullArgumentException)
    case 2 => Some(InvalidArgumentException)
    case 3 => Some(ArgumentOutOfRangeException)
    case 4 => Some(OutOfMemoryException)
    case 5 => Some(IndexOutOfRangeException)
    case 6 => Some(InvalidOperationException)
    case 7 => Some(NotSupportedException)
    case 8 => Some(KeyNotFoundException)
    case 9 => Some(DuplicateKeyException)
    case 10 => Some(OverflowException)
    case 11 => Some(UnderflowException)
    case 12 => Some(DivisionByZeroException)
    case 13 => Some(FormatException)
    case 14 => Some(TimeoutException)
    case 15 => Some(UnknownException)
    case _ => None
  }

  /** The underlying integer of each enumerator: `OK = 0`, then consecutive. */
  function Value(c: ResultCode): (v: nat)
    ensures Enumerator(v) == Some(c)
  {
    match c
    case OK => 0
    case NullArgumentException => 1
    case InvalidArgumentException => 2
    case ArgumentOutOfRangeException => 3
    case OutOfMemoryException => 4
    case IndexOutOfRangeException => 5
    case InvalidOperationException => 6
    case NotSupportedException => 7
    case KeyNotFoundException => 8
    case DuplicateKeyException => 9
    case OverflowException => 10
    case UnderflowException => 11
    case DivisionByZeroException => 12
    case FormatException => 13
    case TimeoutException => 14
    case UnknownException => 15
  }

  /** The identifier each enumerator is declared with. */
  function Name(c: ResultCode): string
  {
    match c
    case OK => "OK"
    case NullArgumentException => "NULL_ARGUMENT_EXCEPTION"
    case InvalidArgumentException => "INVALID_ARGUMENT_EXCEPTION"
    case ArgumentOutOfRangeException => "ARGUMENT_OUT_OF_RANGE_EXCEPTION"
    case OutOfMemoryException => "OUT_OF_MEMORY_EXCEPTION"
    case IndexOutOfRangeException => "INDEX_OUT_OF_RANGE_EXCEPTION"
    case InvalidOperationException => "INVALID_OPERATION_EXCEPTION"
    case NotSupportedException => "NOT_SUPPORTED_EXCEPTION"
    case KeyNotFoundException => "KEY_NOT_FOUND_EXCEPTION"
    case DuplicateKeyException => "DUPLICATE_KEY_EXCEPTION"
    case OverflowException => "OVERFLOW_EXCEPTION"
    case UnderflowException => "UNDERFLOW_EXCEPTION"
    case DivisionByZeroException => "DIVISION_BY_ZERO_EXCEPTION"
    case FormatException => "FORMAT_EXCEPTION"
    case TimeoutException => "TIMEOUT_EXCEPTION"
    case UnknownException => "UNKNOWN_EXCEPTION"
  }

  /** `resultCodeToString`: a `ResultCode` object may hold any integer, so the
      switch is over the underlying value, with a default arm. */
  function ResultCodeToString(code: int): (s: string)
    ensures Enumerator(code).Some? ==> s == Name(Enumerator(code).value)
    ensures Enumerator(code).None? ==> s == "UNKNOWN_EXCEPTION"
    ensures 0 < |s| < MaxErrorMessageLen
  {
    match code
    case 0 => "OK"
    case 1 => "NULL_ARGUMENT_EXCEPTION"
    case 2 => "INVALID_ARGUMENT_EXCEPTION"
    case 3 => "ARGUMENT_OUT_OF_RANGE_EXCEPTION"
    case 4 => "OUT_OF_MEMORY_EXCEPTION"
    case 5 => "INDEX_OUT_OF_RANGE_EXCEPTION"
    case 6 => "INVALID_OPERATION_EXCEPTION"
    case 7 => "NOT_SUPPORTED_EXCEPTION"
    case 8 => "KEY_NOT_FOUND_EXCEPTION"
    case 9 => "DUPLICATE_KEY_EXCEPTION"
    case 10 => "OVERFLOW_EXCEPTION"
    case 11 => "UNDERFLOW_EXCEPTION"
    case 12 => "DIVISION_BY_ZERO_EXCEPTION"
    case 13 => "FORMAT_EXCEPTION"
    case 14 => "TIMEOUT_EXCEPTION"
    case _ => "UNKNOWN_EXCEPTION"
  }

  /** Each enumerator is spelled as its own identifier, and `OK` is the first
      enumerator, with value 0. */
  lemma ToStringOfEnumerator(c: ResultCode)
    ensures ResultCodeToString(Value(c)) == Name(c)
    ensures (Value(c) == 0) <==> (c == OK)
  {
  }

  /** Length and first two characters of each enumerator's spelling. */
  function Signature(c: ResultCode): (nat, char, char)
  {
    match c
    case OK => (2, 'O', 'K')
    case NullArgumentException => (23, 'N', 'U')
    case InvalidArgumentException => (26, 'I', 'N')
    case ArgumentOutOfRangeException => (31, 'A', 'R')
    case OutOfMemoryException => (23, 'O', 'U')
    case IndexOutOfRangeException => (28, 'I', 'N')
    case InvalidOperationException => (27, 'I', 'N')
    case NotSupportedException => (23, 'N', 'O')
    case KeyNotFoundException => (23, 'K', 'E')
    case DuplicateKeyException => (23, 'D', 'U')
    case OverflowException => (18, 'O', 'V')
    case UnderflowException => (19, 'U', 'N')
    case DivisionByZeroException => (26, 'D', 'I')
    case FormatException => (16, 'F', 'O')
    case TimeoutException => (17, 'T', 'I')
    case UnknownException => (17, 'U', 'N')
  }

  /** The spelling of `c` is at least two characters long and starts with
      the signature of `c`. */
  predicate HasSignature(c: ResultCode)
  {
    |Name(c)| >= 2 && (|Name(c)|, Name(c)[0], Name(c)[1]) == Signature(c)
  }

  lemma NamesHaveSignature0(c: ResultCode)
    ensures 0 <= Value(c) < 4 ==> HasSignature(c)
  {
    match c
    case OK =>
    case NullArgumentException =>
    case InvalidArgumentException =>
    case ArgumentOutOfRangeException =>
    case _ =>
  }

  lemma NamesHaveSignature1(c: ResultCode)
    ensures 4 <= Value(c) < 8 ==> HasSignature(c)
  {
    match c
    case OutOfMemoryException =>
    case IndexOutOfRangeException =>
    case InvalidOperationException =>
    case NotSupportedException =>
    case _ =>
  }

  lemma NamesHaveSignature2(c: ResultCode)
    ensures 8 <= Value(c) < 12 ==> HasSignature(c)
  {
    match c
    case KeyNotFoundException =>
    case DuplicateKeyException =>
    case OverflowException =>
    case UnderflowException =>
    case _ =>
  }

  lemma NamesHaveSignature3(c: ResultCode)
    ensures 12 <= Value(c) < 16 ==> HasSignature(c)
  {
    match c
    case DivisionByZeroException =>
    case FormatException =>
    case TimeoutException =>
    case UnknownException =>
    case _ =>
  }

  lemma NamesAreNulFree0(c: ResultCode)
    ensures 0 <= Value(c) < 2 ==> NulFree(Name(c))
  {
    match c
    case OK =>
    case NullArgumentException =>
    case _ =>
  }

  lemma NamesAreNulFree1(c: ResultCode)
    ensures 2 <= Value(c) < 4 ==> NulFree(Name(c))
  {
    match c
    case InvalidArgumentException =>
    case ArgumentOutOfRangeException =>
    case _ =>
  }

  lemma NamesAreNulFree2(c: ResultCode)
    ensures 4 <= Value(c) < 6 ==> NulFree(Name(c))
  {
    match c
    case OutOfMemoryException =>
    case IndexOutOfRangeException =>
    case _ =>
  }

  lemma NamesAreNulFree3(c: ResultCode)
    ensures 6 <= Value(c) < 8 ==> NulFree(Name(c))
  {
    match c
    case InvalidOperationException =>
    case NotSupportedException =>
    case _ =>
  }

  lemma NamesAreNulFree4(c: ResultCode)
    ensures 8 <= Value(c) < 10 ==> NulFree(Name(c))
  {
    match c
    case KeyNotFoundException =>
    case DuplicateKeyException =>
    case _ =>
  }

  lemma NamesAreNulFree5(c: ResultCode)
    ensures 10 <= Value(c) < 12 ==> NulFree(Name(c))
  {
    match c
    case OverflowException =>
    case UnderflowException =>
    case _ =>
  }

  lemma NamesAreNulFree6(c: ResultCode)
    ensures 12 <= Value(c) < 14 ==> NulFree(Name(c))
  {
    match c
    case DivisionByZeroException =>
    case FormatException =>
    case _ =>
  }

  lemma NamesAreNulFree7(c: ResultCode)
    ensures 14 <= Value(c) < 16 ==> NulFree(Name(c))
  {
    match c
    case TimeoutException =>
    case UnknownException =>
    case _ =>
  }

  /** No spelling holds a NUL, so each is a C string of its own length. */
  lemma NameIsNulFree(c: ResultCode)
    ensures NulFree(Name(c))
  {
    NamesAreNulFree0(c);
    NamesAreNulFree1(c);
    NamesAreNulFree2(c);
    NamesAreNulFree3(c);
    NamesAreNulFree4(c);
    NamesAreNulFree5(c);
    NamesAreNulFree6(c);
    NamesAreNulFree7(c);
  }

  /** Every spelling starts with the signature of its enumerator. */
  lemma NameHasSignature(c: ResultCode)
    ensures HasSignature(c)
  {
    NamesHaveSignature0(c);
    NamesHaveSignature1(c);
    NamesHaveSignature2(c);
    NamesHaveSignature3(c);
  }

  /** Recovers the enumerator from its signature; used to show that the
      spelling is injective. */
  function FromSignature(t: (nat, char, char)): Option<ResultCode>
  {
    if t == (2, 'O', 'K') then Some(OK)
    else if t == (23, 'N', 'U') then Some(NullArgumentException)
    else if t == (26, 'I', 'N') then Some(InvalidArgumentException)
    else if t == (31, 'A', 'R') then Some(ArgumentOutOfRangeException)
    else if t == (23, 'O', 'U') then Some(OutOfMemoryException)
    else if t == (28, 'I', 'N') then Some(IndexOutOfRangeException)
    else if t == (27, 'I', 'N') then Some(InvalidOperationException)
    else if t == (23, 'N', 'O') then Some(NotSupportedException)
    else if t == (23, 'K', 'E') then Some(KeyNotFoundException)
    else if t == (23, 'D', 'U') then Some(DuplicateKeyException)
    else if t == (18, 'O', 'V') then Some(OverflowException)
    else if t == (19, 'U', 'N') then Some(UnderflowException)
    else if t == (26, 'D', 'I') then Some(DivisionByZeroException)
    else if t == (16, 'F', 'O') then Some(FormatException)
    else if t == (17, 'T', 'I') then Some(TimeoutException)
    else if t == (17, 'U', 'N') then Some(UnknownException)
    else None
  }

  lemma FromSignatureInvertsSignature(c: ResultCode)
    ensures FromSignature(Signature(c)) == Some(c)
  {
  }

  /** Distinct enumerators are spelled differently. */
  lemma {:induction false} DistinctCodesDistinctNames(c1: ResultCode, c2: ResultCode)
    requires c1 != c2
    ensures ResultCodeToString(Value(c1)) != ResultCodeToString(Value(c2))
  {
    ToStringOfEnumerator(c1);
    ToStringOfEnumerator(c2);
    NameHasSignature(c1);
    NameHasSignature(c2);
    FromSignatureInvertsSignature(c1);
    FromSignatureInvertsSignature(c2);
  }

  /** The raw characters of `g_lastErrorMessage`. */
  type ErrorBuffer = b: seq<char> | |b| == MaxErrorMessageLen witness seq(MaxErrorMessageLen, _ => '\0')

  /** `g_lastErrorMessage`; it starts all NUL, i.e. empty. */
  datatype LastError = LastError(buffer: ErrorBuffer)

  const InitialLastError := LastError(seq(MaxErrorMessageLen, _ => '\0'))

  /** `getLastErrorMessage`: the C string the buffer holds. */
  function GetLastErrorMessage(e: LastError): string
  {
    Content(e.buffer)
  }

  /** `strncpy` of `n` characters followed by a NUL at index `n` leaves the
      first `n` characters of the source's C string. */
  lemma TerminatedCopy(dst: seq<char>, src: seq<char>, n: nat)
    requires n < |dst|
    ensures Content(Strncpy(dst, src, n)[n := '\0']) == Truncate(Content(src), n)
  {
    var b := Strncpy(dst, src, n)[n := '\0'];
    var t := Truncate(Content(src), n);
    assert t <= b by {
      forall i | 0 <= i < |t| ensures t[i] == b[i] {
        assert t[i] == Content(src)[i];
      }
    }
    ContentIsUnique(b, t);
  }

  /** `setLastError(code, message)`: the buffer receives the message, or the
      code's name when the message is null, cut to fit the buffer. */
  function SetLastError(prev: LastError, code: int, message: Option<string> := None): (e: LastError)
    ensures var m := GetLastErrorMessage(e);
            && |m| < MaxErrorMessageLen
            && (message.Some? ==> m <= message.value)
            && (message.Some? && NulFree(message.value) && |message.value| < MaxErrorMessageLen ==> m == message.value)
            && (message.Some? && NulFree(message.value) && |message.value| >= MaxErrorMessageLen ==>
                  |m| == MaxErrorMessageLen - 1)
            && (message.None? ==> m == ResultCodeToString(code))
    ensures message.Some? ==> GetLastErrorMessage(e) == Truncate(Content(message.value), MaxErrorMessageLen - 1)
  {
    var src := if message.Some? then message.value else ResultCodeToString(code);
    TerminatedCopy(prev.buffer, src, MaxErrorMessageLen - 1);
    assert message.None? ==> NulFree(src) by {
      if Enumerator(code).Some? { NameIsNulFree(Enumerator(code).value); }
    }
    if NulFree(src) then ContentIsUnique(src, src); LastError(Strncpy(prev.buffer, src, MaxErrorMessageLen - 1)[MaxErrorMessageLen - 1 := '\0'])
    else LastError(Strncpy(prev.buffer, src, MaxErrorMessageLen - 1)[MaxErrorMessageLen - 1 := '\0'])
  }

  /** `clearLastError`: the first character becomes the terminator; the
      stale characters behind it stay. */
  function ClearLastError(e: LastError): (r: LastError)
    ensures GetLastErrorMessage(r) == ""
    ensures r.buffer[1..] == e.buffer[1..]
  {
    LastError(e.buffer[0 := '\0'])
  }

  /** `strncpy` pads with NULs up to the limit and the terminator covers the
      last character, so `setLastError` rewrites the whole buffer: nothing
      stored before, not even stale characters `clearLastError` left, can
      show through. */
  lemma SetOverwritesWholeBuffer(p: LastError, q: LastError, code: int, message: Option<string>)
    ensures SetLastError(p, code, message) == SetLastError(q, code, message)
  {
    var src := if message.Some? then message.value else ResultCodeToString(code);
    var n := MaxErrorMessageLen - 1;
    var a := Strncpy(p.buffer, src, n)[n := '\0'];
    var b := Strncpy(q.buffer, src, n)[n := '\0'];
    assert forall i :: 0 <= i < MaxErrorMessageLen ==> a[i] == b[i];
    assert a == b;
  }

  /** `Result<T>`; `Result<void>` is `CodeResult<()>`. */
  datatype CodeResult<T> = CodeResult(code: ResultCode, value: T)

  /** `Result()`: `OK` with a value-initialised payload `zero`. */
  function DefaultResult<T>(zero: T): (r: CodeResult<T>)
    ensures IsSuccess(r) && r.value == zero
  {
    CodeResult(OK, zero)
  }

  /** `Result(c)`. */
  function FromCode<T>(c: ResultCode, zero: T): (r: CodeResult<T>)
    ensures IsError(r) <==> c != OK
    ensures r.value == zero
  {
    CodeResult(c, zero)
  }

  predicate IsSuccess<T>(r: CodeResult<T>)
  {
    r.code == OK
  }

  predicate IsError<T>(r: CodeResult<T>)
    ensures IsError(r) <==> !IsSuccess(r)
  {
    r.code != OK
  }

  /** `operator bool`. */
  function AsBool<T>(r: CodeResult<T>): (b: bool)
    ensures b <==> IsSuccess(r)
    ensures b <==> !IsError(r)
  {
    r.code == OK
  }
}

=== FILE: sensor_contract.dfy ===
/** The state every sensor shares through its `ISensor` base, the options of
    `readValues`, and the due-timer gate (include/ISensor.h). */
module SensorContract {
  import opened Timing
  import opened Exceptions

  /** The `ISensor` fields. `sensorName` and `updateInterval` are set by the
      constructor and never reassigned; `lastReadTime` is the due timer. */
  datatype SensorBase = SensorBase(sensorName: string, updateInterval: u32, lastReadTime: u32)

  /** `ISensor(name, interval)`: the due timer starts at 0. */
  function NewBase(name: string, interval: u32): (b: SensorBase)
    ensures b.sensorName == name && b.updateInterval == interval && b.lastReadTime == 0
  {
    SensorBase(name, interval, 0)
  }

  /** The two flags of `readValues(bool force = false, bool updateReadTime = true)`. */
  datatype ReadOptions = ReadOptions(force: bool, updateReadTime: bool)

  /** The arguments `readValues()` gets when called without any. */
  function DefaultReadOptions(): (o: ReadOptions)
    ensures !o.force && o.updateReadTime
  {
    ReadOptions(false, true)
  }

  /** What a member call leaves behind: the object's new state, and the value
      returned or the exception thrown. State changed before a throw stays. */
  datatype Transition<S, T> = Transition(next: S, result: Outcome<T>)

  /** At least `updateInterval` ms have passed since the last accepted read,
      measured with wrapping 32-bit subtraction. */
  predicate Due(b: SensorBase, now: u32)
  {
    WrapSub(now, b.lastReadTime) >= b.updateInterval
  }

  /** The gate `millis() - lastReadTime < updateInterval && !force` shared by
      the generic, MPU6050 and MQ135 sensors: such a read returns an empty
      result. */
  predicate Withheld(b: SensorBase, opts: ReadOptions, now: u32)
  {
    !opts.force && !Due(b, now)
  }

  /** `if (updateReadTime) lastReadTime = millis();` */
  function Stamp(b: SensorBase, opts: ReadOptions, now: u32): (r: SensorBase)
    ensures r.sensorName == b.sensorName && r.updateInterval == b.updateInterval
    ensures opts.updateReadTime ==> r.lastReadTime == now
    ensures !opts.updateReadTime ==> r == b
  {
    if opts.updateReadTime then b.(lastReadTime := now) else b
  }

  /** Right after a stamped read the sensor is not due again until the
      interval has passed, however the 32-bit clock wraps in between. */
  lemma StampedReadIsWithheldUntilInterval(b: SensorBase, now: u32, later: u32)
    requires WrapSub(later, now) < b.updateInterval
    ensures Withheld(Stamp(b, DefaultReadOptions(), now), DefaultReadOptions(), later)
  {
  }
}

=== FILE: sensor_manager.dfy ===
/** `SensorManager`: the list of registered sensors and the four loops over
    it, each with its own catch clause (include/SensorManager.h). */
module SensorManager {
  import opened Timing
  import opened Exceptions
  import opened SensorResult
  import opened SensorContract
  import opened Sensors
  import U = MPU6050

  /** `SensorInstance`: `sensor` is `None` for a null pointer. */
  datatype SensorInstance = SensorInstance(
    sensor: Option<Sensor>,
    throwOnInitializationError: bool,
    throwOnUpdateError: bool)

  /** The manager's vector, and the MPU6050 drift timer shared by every
      MPU6050 it updates. */
  datatype Manager = Manager(sensors: seq<SensorInstance>, drift: U.DriftTimer)

  const EmptyManager := Manager([], U.IdleTimer)

  /** `hw(i)` is what the hardware answers to the call on the `i`-th entry. */
  type Bench = nat -> Hardware

  /** `addSensor(sensor, throwOnInitializationError = true, throwOnUpdateError = true)`. */
  function AddSensor(m: Manager, sensor: Option<Sensor>, throwOnInit: bool := true, throwOnUpdate: bool := true)
    : (r: Manager)
    ensures |r.sensors| == |m.sensors| + 1 && r.sensors[..|m.sensors|] == m.sensors
    ensures r.sensors[|m.sensors|] == SensorInstance(sensor, throwOnInit, throwOnUpdate)
    ensures r.drift == m.drift
  {
    m.(sensors := m.sensors + [SensorInstance(sensor, throwOnInit, throwOnUpdate)])
  }

  /** `beginAll`, `updateAll` and `logAllValues` dereference every entry. */
  predicate NoNullSensors(sensors: seq<SensorInstance>)
  {
    forall i :: 0 <= i < |sensors| ==> sensors[i].sensor.Some?
  }

  /** The four loops. `LogCall` is `logAllValues`, which calls
      `readValues()` with its default arguments. */
  datatype Loop = BeginLoop | UpdateLoop | LogLoop | ReadLoop(opts: ReadOptions)

  /** The exception the loop body's sensor call throws, if any. It does not
      depend on the drift timer, nor on the other entries. */
  function Thrown(loop: Loop, s: Sensor, h: Hardware): Option<Exception>
  {
    var r :=
      match loop
      case BeginLoop => Begin(s, h).result
      case UpdateLoop => if UpdateFails(s) then Throw(NotInitializedError) else Ok(())
      case LogLoop => if ReadValues(s, DefaultReadOptions(), h).result.Throw?
                      then Throw(ReadValues(s, DefaultReadOptions(), h).result.error) else Ok(())
      case ReadLoop(opts) => if ReadValues(s, opts, h).result.Throw?
                             then Throw(ReadValues(s, opts, h).result.error) else Ok(());
    if r.Throw? then Some(r.error) else None
  }

  /** The loop's catch clauses swallow `e` for this entry: the exception
      class matches a handler and the entry's flag does not ask to rethrow. */
  predicate Swallowed(loop: Loop, entry: SensorInstance, e: Exception)
  {
    match loop
    case BeginLoop => Catches(SensorInitialization, e) && !entry.throwOnInitializationError
    case UpdateLoop => Catches(SensorNotInitialized, e) && !entry.throwOnUpdateError
    case LogLoop => (Catches(SensorNotInitialized, e) || Catches(SensorRead, e)) && !entry.throwOnUpdateError
    case ReadLoop(_) => Catches(SensorRead, e) && !entry.throwOnUpdateError
  }

  /** The loop leaves at this entry. `readAll` skips null entries. */
  predicate Escapes(loop: Loop, entry: SensorInstance, h: Hardware)
  {
    && entry.sensor.Some?
    && var e := Thrown(loop, entry.sensor.value, h);
       e.Some? && !Swallowed(loop, entry, e.value)
  }

  /** The index of the first entry at or after `i` the loop leaves at, or
      the length of the list when there is none. */
  function FirstEscape(loop: Loop, sensors: seq<SensorInstance>, hw: Bench, i: nat): (r: nat)
    requires i <= |sensors|
    ensures i <= r <= |sensors|
    ensures forall j :: i <= j < r ==> !Escapes(loop, sensors[j], hw(j))
    ensures r < |sensors| ==> Escapes(loop, sensors[r], hw(r))
    decreases |sensors| - i
  {
    if i == |sensors| || Escapes(loop, sensors[i], hw(i)) then i
    else FirstEscape(loop, sensors, hw, i + 1)
  }

  /** Only the entries the loop has not reached yet matter to where it stops. */
  lemma {:induction false} FirstEscapeFrame(loop: Loop, a: seq<SensorInstance>, b: seq<SensorInstance>, hw: Bench, i: nat)
    requires i <= |a| == |b|
    requires forall j :: i <= j < |a| ==> a[j] == b[j]
    ensures FirstEscape(loop, a, hw, i) == FirstEscape(loop, b, hw, i)
    decreases |a| - i
  {
    if i < |a| && !Escapes(loop, a[i], hw(i)) {
      FirstEscapeFrame(loop, a, b, hw, i + 1);
    }
  }

  // ---------------------------------------------------------------- beginAll

  function Begun(entry: SensorInstance, h: Hardware): SensorInstance
    requires entry.sensor.Some?
  {
    entry.(sensor := Some(Begin(entry.sensor.value, h).next))
  }

  /** The `beginAll` loop from entry `i` on. Each entry is begun in order; the
      loop leaves at the first entry whose exception is not swallowed,
      rethrowing it, with that entry's own changes kept and the later
      entries untouched. */
  function BeginFrom(sensors: seq<SensorInstance>, hw: Bench, i: nat): (r: Transition<seq<SensorInstance>, ()>)
    requires i <= |sensors| && NoNullSensors(sensors)
    ensures |r.next| == |sensors| && NoNullSensors(r.next)
    ensures var stop := FirstEscape(BeginLoop, sensors, hw, i);
            && (r.result.Ok? <==> stop == |sensors|)
            && (r.result.Throw? ==> r.result.error == Begin(sensors[stop].sensor.value, hw(stop)).result.error)
            && (forall k :: 0 <= k < |sensors| ==>
                  r.next[k] == if i <= k <= stop then Begun(sensors[k], hw(k)) else sensors[k])
    decreases |sensors| - i
  {
    if i == |sensors| then Transition(sensors, Ok(()))
    else
      var t := Begin(sensors[i].sensor.value, hw(i));
      var updated := sensors[i := Begun(sensors[i], hw(i))];
      if Escapes(BeginLoop, sensors[i], hw(i)) then Transition(updated, Throw(t.result.error))
      else
        FirstEscapeFrame(BeginLoop, sensors, updated, hw, i + 1);
        BeginFrom(updated, hw, i + 1)
  }

  /** `beginAll()`. */
  function BeginAll(m: Manager, hw: Bench): (r: Transition<Manager, ()>)
    requires NoNullSensors(m.sensors)
    ensures r.next.drift == m.drift && |r.next.sensors| == |m.sensors|
    ensures var stop := FirstEscape(BeginLoop, m.sensors, hw, 0);
            && (r.result.Ok? <==> stop == |m.sensors|)
            && (r.result.Throw? ==> r.result.error == Begin(m.sensors[stop].sensor.value, hw(stop)).result.error)
            && (forall k :: 0 <= k < |m.sensors| ==>
                  r.next.sensors[k] == if k <= stop then Begun(m.sensors[k], hw(k)) else m.sensors[k])
  {
    var t := BeginFrom(m.sensors, hw, 0);
    Transition(m.(sensors := t.next), t.result)
  }

  /** With every entry registered as non-critical for initialisation,
      `beginAll` never throws: `begin()` only throws
      `SensorInitializationException`, which the loop catches. */
  lemma LenientBeginAllNeverThrows(m: Manager, hw: Bench)
    requires NoNullSensors(m.sensors)
    requires forall i :: 0 <= i < |m.sensors| ==> !m.sensors[i].throwOnInitializationError
    ensures BeginAll(m, hw).result.Ok?
  {
    var stop := FirstEscape(BeginLoop, m.sensors, hw, 0);
    if stop < |m.sensors| {
      var e := Begin(m.sensors[stop].sensor.value, hw(stop)).result.error;
      AncestorsOf(SensorInitialization, SensorInitialization);
      assert Catches(SensorInitialization, e);
    }
  }

  // --------------------------------------------------------------- updateAll

  /** `b` is what `update()` can leave of entry `a`: same flags, same
      sensor object, same initialisation. */
  predicate Kin(a: SensorInstance, b: SensorInstance)
  {
    && a.sensor.Some? && b.sensor.Some?
    && b.throwOnInitializationError == a.throwOnInitializationError
    && b.throwOnUpdateError == a.throwOnUpdateError
    && SameIdentity(a.sensor.value, b.sensor.value)
    && Initialized(b.sensor.value) == Initialized(a.sensor.value)
  }

  /** The `updateAll` loop from entry `i` on, threading the drift timer. */
  function UpdateFrom(sensors: seq<SensorInstance>, drift: U.DriftTimer, hw: Bench, i: nat)
    : (r: Transition<(seq<SensorInstance>, U.DriftTimer), ()>)
    requires i <= |sensors| && NoNullSensors(sensors)
    ensures |r.next.0| == |sensors|
    ensures var stop := FirstEscape(UpdateLoop, sensors, hw, i);
            && (r.result.Ok? <==> stop == |sensors|)
            && (r.result.Throw? ==> r.result.error == NotInitializedError)
            && (forall k :: 0 <= k < |sensors| && !(i <= k < stop) ==>
                  r.next.0[k].sensor == sensors[k].sensor)
    decreases |sensors| - i
  {
    if i == |sensors| then Transition((sensors, drift), Ok(()))
    else
      var t := Update(sensors[i].sensor.value, drift, hw(i));
      var updated := sensors[i := sensors[i].(sensor := Some(t.next.0))];
      if Escapes(UpdateLoop, sensors[i], hw(i)) then Transition((sensors, drift), Throw(t.result.error))
      else
        FirstEscapeFrame(UpdateLoop, sensors, updated, hw, i + 1);
        UpdateFrom(updated, t.next.1, hw, i + 1)
  }

  /** Every entry keeps its flags, identity and initialisation through the
      loop. */
  lemma {:induction false} UpdateFromKeepsKin(sensors: seq<SensorInstance>, drift: U.DriftTimer, hw: Bench, i: nat)
    requires i <= |sensors| && NoNullSensors(sensors)
    ensures var r := UpdateFrom(sensors, drift, hw, i);
            forall k :: 0 <= k < |sensors| ==> Kin(sensors[k], r.next.0[k])
    decreases |sensors| - i
  {
    if i < |sensors| && !Escapes(UpdateLoop, sensors[i], hw(i)) {
      var t := Update(sensors[i].sensor.value, drift, hw(i));
      var updated := sensors[i := sensors[i].(sensor := Some(t.next.0))];
      UpdateKeepsKin(sensors[i], drift, hw(i));
      UpdateFromKeepsKin(updated, t.next.1, hw, i + 1);
      var rest := UpdateFrom(updated, t.next.1, hw, i + 1);
      assert UpdateFrom(sensors, drift, hw, i) == rest;
      forall k | 0 <= k < |sensors|
        ensures Kin(sensors[k], rest.next.0[k])
      {
        if k == i {
          KinTransitive(sensors[i], updated[i], rest.next.0[i]);
        }
      }
    }
  }

  /** Every entry the loop passes before it stops holds what its sensor's
      `update()` returned. The MPU6050's result depends on the drift timer as
      the earlier entries left it, so it is stated for the other sensors,
      which ignore the timer. */
  lemma {:induction false} UpdateFromUpdatesEntries(sensors: seq<SensorInstance>, drift: U.DriftTimer, hw: Bench, i: nat)
    requires i <= |sensors| && NoNullSensors(sensors)
    ensures var r := UpdateFrom(sensors, drift, hw, i);
            forall k :: i <= k < FirstEscape(UpdateLoop, sensors, hw, i) && !sensors[k].sensor.value.MotionSensor? ==>
              r.next.0[k].sensor == Some(Update(sensors[k].sensor.value, drift, hw(k)).next.0)
    decreases |sensors| - i
  {
    if i < |sensors| && !Escapes(UpdateLoop, sensors[i], hw(i)) {
      var t := Update(sensors[i].sensor.value, drift, hw(i));
      var updated := sensors[i := sensors[i].(sensor := Some(t.next.0))];
      FirstEscapeFrame(UpdateLoop, sensors, updated, hw, i + 1);
      UpdateFromUpdatesEntries(updated, t.next.1, hw, i + 1);
      var rest := UpdateFrom(updated, t.next.1, hw, i + 1);
      assert UpdateFrom(sensors, drift, hw, i) == rest;
      var stop := FirstEscape(UpdateLoop, sensors, hw, i);
      forall k | i < k < stop && !sensors[k].sensor.value.MotionSensor?
        ensures rest.next.0[k].sensor == Some(Update(sensors[k].sensor.value, drift, hw(k)).next.0)
      {
        UpdateIgnoresDrift(sensors[k].sensor.value, t.next.1, drift, hw(k));
      }
    }
  }

  /** Only the MPU6050's `update()` reads the drift timer. */
  lemma UpdateIgnoresDrift(s: Sensor, d1: U.DriftTimer, d2: U.DriftTimer, h: Hardware)
    requires !s.MotionSensor?
    ensures Update(s, d1, h).next.0 == Update(s, d2, h).next.0
  {
  }

  /** The drift timer changes only when the loop updates an MPU6050. */
  lemma {:induction false} UpdateFromKeepsDrift(sensors: seq<SensorInstance>, drift: U.DriftTimer, hw: Bench, i: nat)
    requires i <= |sensors| && NoNullSensors(sensors)
    ensures (forall k :: i <= k < FirstEscape(UpdateLoop, sensors, hw, i) ==> !sensors[k].sensor.value.MotionSensor?) ==>
              UpdateFrom(sensors, drift, hw, i).next.1 == drift
    decreases |sensors| - i
  {
    if i < |sensors| && !Escapes(UpdateLoop, sensors[i], hw(i)) {
      var t := Update(sensors[i].sensor.value, drift, hw(i));
      var updated := sensors[i := sensors[i].(sensor := Some(t.next.0))];
      FirstEscapeFrame(UpdateLoop, sensors, updated, hw, i + 1);
      UpdateFromKeepsDrift(updated, t.next.1, hw, i + 1);
    }
  }

  /** One `update()` keeps the entry's kin. */
  lemma UpdateKeepsKin(entry: SensorInstance, drift: U.DriftTimer, h: Hardware)
    requires entry.sensor.Some?
    ensures Kin(entry, entry.(sensor := Some(Update(entry.sensor.value, drift, h).next.0)))
  {
  }

  lemma KinTransitive(a: SensorInstance, b: SensorInstance, c: SensorInstance)
    requires Kin(a, b) && Kin(b, c)
    ensures Kin(a, c)
  {
  }

  /** `updateAll()`: it stops at the first entry that is not initialised and
      registered as critical, throwing `SensorNotInitializedException`. */
  function UpdateAll(m: Manager, hw: Bench): (r: Transition<Manager, ()>)
    requires NoNullSensors(m.sensors)
    ensures |r.next.sensors| == |m.sensors|
    ensures r.result.Ok? <==>
              forall k :: 0 <= k < |m.sensors| ==>
                !UpdateFails(m.sensors[k].sensor.value) || !m.sensors[k].throwOnUpdateError
    ensures r.result.Throw? ==> r.result.error == NotInitializedError
    ensures forall k :: 0 <= k < |m.sensors| ==> Kin(m.sensors[k], r.next.sensors[k])
    ensures forall k :: 0 <= k < FirstEscape(UpdateLoop, m.sensors, hw, 0) && !m.sensors[k].sensor.value.MotionSensor? ==>
              r.next.sensors[k].sensor == Some(Update(m.sensors[k].sensor.value, m.drift, hw(k)).next.0)
    ensures forall k :: FirstEscape(UpdateLoop, m.sensors, hw, 0) <= k < |m.sensors| ==>
              r.next.sensors[k].sensor == m.sensors[k].sensor
    ensures (forall k :: 0 <= k < |m.sensors| ==> !m.sensors[k].sensor.value.MotionSensor?) ==> r.next.drift == m.drift
  {
    var t := UpdateFrom(m.sensors, m.drift, hw, 0);
    UpdateFromKeepsKin(m.sensors, m.drift, hw, 0);
    UpdateFromKeepsDrift(m.sensors, m.drift, hw, 0);
    UpdateFromUpdatesEntries(m.sensors, m.drift, hw, 0);
    UpdateEscapes(m.sensors, hw);
    Transition(Manager(t.next.0, t.next.1), t.result)
  }

  /** An entry leaves the `updateAll` loop exactly when its sensor cannot
      update and it is registered as critical. */
  lemma UpdateEscapes(sensors: seq<SensorInstance>, hw: Bench)
    requires NoNullSensors(sensors)
    ensures forall k :: 0 <= k < |sensors| ==>
              (Escapes(UpdateLoop, sensors[k], hw(k)) <==>
               UpdateFails(sensors[k].sensor.value) && sensors[k].throwOnUpdateError)
  {
    AncestorsOf(SensorNotInitialized, SensorNotInitialized);
  }

  /** The drift timer is shared: with two MPU6050s that both keep deviating,
      the first restarts the timer the second would need, so after two rounds
      of `updateAll` spanning the 2 s window only the first has recalibrated,
      and the timer runs again from the second round. */
  lemma SharedDriftTimerStarvesSecondImu(a: U.MPU6050Sensor, b: U.MPU6050Sensor, t0: u32, t1: u32, hw0: Bench, hw1: Bench)
    requires a.initialized && b.initialized
    requires t0 != 0 && WrapSub(t1, t0) >= U.DriftDuration
    requires forall i :: hw0(i).now == t0 && hw0(i).motion.Some? && hw0(i).exceeded
    requires forall i :: hw1(i).now == t1 && hw1(i).motion.Some? && hw1(i).exceeded
    ensures var m := Manager([SensorInstance(Some(MotionSensor(a)), true, true),
                              SensorInstance(Some(MotionSensor(b)), true, true)], U.IdleTimer);
            var after := UpdateAll(UpdateAll(m, hw0).next, hw1).next;
            && after.sensors[0].sensor.value.imu.calibrations == a.calibrations + 1
            && after.sensors[1].sensor.value.imu.calibrations == b.calibrations
            && after.drift == U.DriftTimer(t1, true)
  {
    var m := Manager([SensorInstance(Some(MotionSensor(a)), true, true),
                      SensorInstance(Some(MotionSensor(b)), true, true)], U.IdleTimer);
    // First round, at t0: `a` starts the timer, `b` finds it running.
    var a1 := U.Update(a, U.IdleTimer, t0, true, true, hw0(0).calibration);
    assert a1.next == (a, U.DriftTimer(t0, true));
    var b1 := U.Update(b, a1.next.1, t0, true, true, hw0(1).calibration);
    assert b1.next == (b, U.DriftTimer(t0, true));
    var s1 := UpdateFrom(m.sensors, m.drift, hw0, 0);
    assert m.sensors[0 := m.sensors[0].(sensor := Some(MotionSensor(a)))] == m.sensors;
    assert s1 == UpdateFrom(m.sensors, U.DriftTimer(t0, true), hw0, 1);
    assert m.sensors[1 := m.sensors[1].(sensor := Some(MotionSensor(b)))] == m.sensors;
    assert s1 == UpdateFrom(m.sensors, U.DriftTimer(t0, true), hw0, 2);
    assert s1.next.0 == m.sensors && s1.next.1 == U.DriftTimer(t0, true);
    // Second round, at t1: `a` recalibrates and stops the timer, `b` restarts it.
    var a2 := U.Update(a, U.DriftTimer(t0, true), t1, true, true, hw1(0).calibration);
    assert a2.next.1 == U.IdleTimer && a2.next.0.calibrations == a.calibrations + 1;
    var b2 := U.Update(b, U.IdleTimer, t1, true, true, hw1(1).calibration);
    assert b2.next == (b, U.DriftTimer(t1, true));
    var s2 := UpdateFrom(m.sensors, U.DriftTimer(t0, true), hw1, 0);
    var upd := m.sensors[0 := m.sensors[0].(sensor := Some(MotionSensor(a2.next.0)))];
    assert s2 == UpdateFrom(upd, U.IdleTimer, hw1, 1);
    var upd2 := upd[1 := upd[1].(sensor := Some(MotionSensor(b)))];
    assert UpdateFrom(upd, U.IdleTimer, hw1, 1) == UpdateFrom(upd2, U.DriftTimer(t1, true), hw1, 2);
    assert s2.next.0[0].sensor == Some(MotionSensor(a2.next.0));
    assert s2.next.0[1].sensor == Some(MotionSensor(b)) && s2.next.1 == U.DriftTimer(t1, true);
  }

  // ------------------------------------------------------- readAll / logging

  function ReadEntry(entry: SensorInstance, opts: ReadOptions, h: Hardware): SensorInstance
  {
    if entry.sensor.None? then entry
    else entry.(sensor := Some(ReadValues(entry.sensor.value, opts, h).next))
  }

  /** What `readAll` keeps from one entry: the result of a read that neither
      was skipped, threw nor came back empty. */
  function Kept(entry: SensorInstance, opts: ReadOptions, h: Hardware): (r: seq<Snapshot>)
    ensures |r| <= 1
    ensures forall x :: x in r ==> Valid(x) && !IsEmpty(x)
    ensures |r| == 1 <==>
              && entry.sensor.Some?
              && ReadValues(entry.sensor.value, opts, h).result.Ok?
              && !IsEmpty(ReadValues(entry.sensor.value, opts, h).result.value)
  {
    if entry.sensor.None? then []
    else
      var t := ReadValues(entry.sensor.value, opts, h);
      if t.result.Ok? && !IsEmpty(t.result.value) then [t.result.value] else []
  }

  /** The results `readAll` returns when it finishes: every kept result,
      in list order. */
  function Harvest(sensors: seq<SensorInstance>, opts: ReadOptions, hw: Bench, i: nat): (r: seq<Snapshot>)
    requires i <= |sensors|
    ensures |r| <= |sensors| - i
    ensures forall x :: x in r ==> Valid(x) && !IsEmpty(x)
    decreases |sensors| - i
  {
    if i == |sensors| then [] else Kept(sensors[i], opts, hw(i)) + Harvest(sensors, opts, hw, i + 1)
  }

  lemma {:induction false} HarvestFrame(a: seq<SensorInstance>, b: seq<SensorInstance>, opts: ReadOptions, hw: Bench, i: nat)
    requires i <= |a| == |b|
    requires forall j :: i <= j < |a| ==> a[j] == b[j]
    ensures Harvest(a, opts, hw, i) == Harvest(b, opts, hw, i)
    decreases |a| - i
  {
    if i < |a| {
      HarvestFrame(a, b, opts, hw, i + 1);
    }
  }

  /** The `readAll` loop from entry `i` on: null entries are skipped, the
      results gathered so far are prefixed to those still to come, and only
      `SensorReadException` from a non-critical entry is swallowed. */
  function ReadFrom(sensors: seq<SensorInstance>, opts: ReadOptions, hw: Bench, i: nat)
    : (r: Transition<seq<SensorInstance>, seq<Snapshot>>)
    requires i <= |sensors|
    ensures |r.next| == |sensors|
    ensures var stop := FirstEscape(ReadLoop(opts), sensors, hw, i);
            && (r.result.Ok? <==> stop == |sensors|)
            && (r.result.Ok? ==> r.result.value == Harvest(sensors, opts, hw, i))
            && (r.result.Throw? ==>
                  r.result.error == ReadValues(sensors[stop].sensor.value, opts, hw(stop)).result.error)
            && (forall k :: 0 <= k < |sensors| ==>
                  r.next[k] == if i <= k <= stop then ReadEntry(sensors[k], opts, hw(k)) else sensors[k])
    decreases |sensors| - i
  {
    if i == |sensors| then Transition(sensors, Ok([]))
    else
      var updated := sensors[i := ReadEntry(sensors[i], opts, hw(i))];
      if Escapes(ReadLoop(opts), sensors[i], hw(i)) then
        Transition(updated, Throw(ReadValues(sensors[i].sensor.value, opts, hw(i)).result.error))
      else
        FirstEscapeFrame(ReadLoop(opts), sensors, updated, hw, i + 1);
        HarvestFrame(sensors, updated, opts, hw, i + 1);
        var rest := ReadFrom(updated, opts, hw, i + 1);
        if rest.result.Throw? then rest
        else Transition(rest.next, Ok(Kept(sensors[i], opts, hw(i)) + rest.result.value))
  }

  /** `readAll(forceRead = false, updateReadTime = true)`. */
  function ReadAll(m: Manager, hw: Bench, opts: ReadOptions := DefaultReadOptions()): (r: Transition<Manager, seq<Snapshot>>)
    ensures r.next.drift == m.drift && |r.next.sensors| == |m.sensors|
    ensures var stop := FirstEscape(ReadLoop(opts), m.sensors, hw, 0);
            && (r.result.Ok? <==> stop == |m.sensors|)
            && (r.result.Ok? ==> r.result.value == Harvest(m.sensors, opts, hw, 0))
            && (r.result.Throw? ==>
                  r.result.error == ReadValues(m.sensors[stop].sensor.value, opts, hw(stop)).result.error)
            && (forall k :: 0 <= k < |m.sensors| ==>
                  r.next.sensors[k] == if k <= stop then ReadEntry(m.sensors[k], opts, hw(k)) else m.sensors[k])
    ensures r.result.Ok? ==> forall x :: x in r.result.value ==> Valid(x) && !IsEmpty(x)
    ensures !opts.updateReadTime ==> r.next == m
  {
    var t := ReadFrom(m.sensors, opts, hw, 0);
    assert !opts.updateReadTime ==> forall k :: 0 <= k < |m.sensors| ==> t.next[k] == m.sensors[k];
    assert !opts.updateReadTime ==> t.next == m.sensors;
    Transition(m.(sensors := t.next), t.result)
  }

  /** `readAndLogAllValues()`: a forced read that leaves every due timer,
      and so the whole manager, as it was. */
  function ReadAndLogAllValues(m: Manager, hw: Bench): (r: Transition<Manager, seq<Snapshot>>)
    ensures r.next == m
    ensures var stop := FirstEscape(ReadLoop(ReadOptions(true, false)), m.sensors, hw, 0);
            && (r.result.Ok? <==> stop == |m.sensors|)
            && (r.result.Ok? ==> r.result.value == Harvest(m.sensors, ReadOptions(true, false), hw, 0))
            && (r.result.Throw? ==>
                  r.result.error == ReadValues(m.sensors[stop].sensor.value, ReadOptions(true, false), hw(stop)).result.error)
  {
    ReadAll(m, hw, ReadOptions(true, false))
  }

  /** A sensor that is not initialised makes `readAll` throw
      `SensorNotInitializedException` unless an earlier entry already threw:
      its only handler is for `SensorReadException`, so the entry's flag
      does not matter. */
  lemma ReadAllPropagatesNotInitialized(m: Manager, hw: Bench, opts: ReadOptions, k: nat)
    requires k < |m.sensors| && m.sensors[k].sensor.Some? && !Initialized(m.sensors[k].sensor.value)
    ensures ReadAll(m, hw, opts).result.Throw?
  {
    SensorHandlersAreExclusive(SensorRead, NotInitializedError);
  }

  /** An initialised microphone makes every forced `readAll` throw: its
      10-character keys do not fit the 8-byte key buffer, and the
      `std::out_of_range` this raises is no `SensorReadException`. */
  lemma ForcedReadAllFailsWithMicrophone(m: Manager, hw: Bench, opts: ReadOptions, k: nat)
    requires opts.force
    requires k < |m.sensors| && m.sensors[k].sensor.Some?
    requires m.sensors[k].sensor.value.Microphone? && m.sensors[k].sensor.value.mic.initialized
    ensures ReadAll(m, hw, opts).result.Throw?
  {
    ForcedMicrophoneReadEscapes(m.sensors[k], hw(k), opts);
    assert FirstEscape(ReadLoop(opts), m.sensors, hw, 0) <= k;
  }

  /** The entry-level half: a forced read of an initialised microphone leaves
      the `readAll` loop. */
  lemma ForcedMicrophoneReadEscapes(entry: SensorInstance, h: Hardware, opts: ReadOptions)
    requires opts.force
    requires entry.sensor.Some? && entry.sensor.value.Microphone? && entry.sensor.value.mic.initialized
    ensures Escapes(ReadLoop(opts), entry, h)
  {
    ContainerErrorsEscapeSensorHandlers(SensorRead, KeyTooLong);
  }

  /** The `logAllValues` loop from entry `i` on; the logging itself is left
      out, so what remains is the reads and the catch clauses. */
  function LogFrom(sensors: seq<SensorInstance>, hw: Bench, i: nat): (r: Transition<seq<SensorInstance>, ()>)
    requires i <= |sensors| && NoNullSensors(sensors)
    ensures |r.next| == |sensors|
    ensures var stop := FirstEscape(LogLoop, sensors, hw, i);
            && (r.result.Ok? <==> stop == |sensors|)
            && (r.result.Throw? ==>
                  r.result.error == ReadValues(sensors[stop].sensor.value, DefaultReadOptions(), hw(stop)).result.error)
            && (forall k :: 0 <= k < |sensors| ==>
                  r.next[k] == if i <= k <= stop then ReadEntry(sensors[k], DefaultReadOptions(), hw(k)) else sensors[k])
    decreases |sensors| - i
  {
    if i == |sensors| then Transition(sensors, Ok(()))
    else
      var updated := sensors[i := ReadEntry(sensors[i], DefaultReadOptions(), hw(i))];
      if Escapes(LogLoop, sensors[i], hw(i)) then
        Transition(updated, Throw(ReadValues(sensors[i].sensor.value, DefaultReadOptions(), hw(i)).result.error))
      else
        FirstEscapeFrame(LogLoop, sensors, updated, hw, i + 1);
        LogFrom(updated, hw, i + 1)
  }

  /** `logAllValues()`. */
  function LogAllValues(m: Manager, hw: Bench): (r: Transition<Manager, ()>)
    requires NoNullSensors(m.sensors)
    ensures r.next.drift == m.drift && |r.next.sensors| == |m.sensors|
    ensures var stop := FirstEscape(LogLoop, m.sensors, hw, 0);
            && (r.result.Ok? <==> stop == |m.sensors|)
            && (r.result.Throw? ==>
                  r.result.error == ReadValues(m.sensors[stop].sensor.value, DefaultReadOptions(), hw(stop)).result.error)
            && (forall k :: 0 <= k < |m.sensors| ==>
                  r.next.sensors[k] == if k <= stop then ReadEntry(m.sensors[k], DefaultReadOptions(), hw(k)) else m.sensors[k])
  {
    var t := LogFrom(m.sensors, hw, 0);
    Transition(m.(sensors := t.next), t.result)
  }

  /** Unlike `readAll`, `logAllValues` also catches
      `SensorNotInitializedException`: with every entry non-critical, the only
      exception that can leave it is the microphone's `std::out_of_range`. */
  lemma LenientLogAllValuesOnlyLeaksKeyErrors(m: Manager, hw: Bench)
    requires NoNullSensors(m.sensors)
    requires forall i :: 0 <= i < |m.sensors| ==> !m.sensors[i].throwOnUpdateError
    ensures LogAllValues(m, hw).result.Throw? ==> LogAllValues(m, hw).result.error == KeyTooLong
  {
    var stop := FirstEscape(LogLoop, m.sensors, hw, 0);
    if stop < |m.sensors| {
      AncestorsOf(SensorNotInitialized, SensorNotInitialized);
      AncestorsOf(SensorRead, SensorRead);
    }
  }
}

=== FILE: sensor_result.dfy ===
/** `SensorResult`: one sensor's readings for one cycle, an ordered map from
    short keys to values, plus the sensor's display name
    (lib/SensorResult/SensorResult.{h,cpp}, SensorResultNode.h).
    The source keeps a doubly linked list; the model keeps the sequence of
    entries in list order. */
module SensorResult {
  import opened Exceptions
  import opened CStrings

  /** `SENSORENTRY_MAX_KEY_LEN`: key buffer size, terminator included. */
  const MaxKeyLen: nat := 8

  /** `count` is a `uint8_t`: the model never lets it wrap. */
  const MaxEntries: nat := 255

  const UnknownName: string := "Unknown"

  type uint8 = x: int | 0 <= x < 256

  /** `SensorEntry`. */
  datatype Entry = Entry(key: string, value: real)

  datatype Snapshot = Snapshot(entries: seq<Entry>, sensorName: string)

  const KeyTooLong := Exception(OutOfRange, "Key too long")
  const IndexOutOfRange := Exception(OutOfRange, "Index out of range")

  function Keys(entries: seq<Entry>): (ks: seq<string>)
    ensures |ks| == |entries|
    ensures forall i :: 0 <= i < |entries| ==> ks[i] == entries[i].key
  {
    seq(|entries|, i requires 0 <= i < |entries| => entries[i].key)
  }

  predicate UniqueKeys(entries: seq<Entry>)
  {
    forall i, j :: 0 <= i < j < |entries| ==> entries[i].key != entries[j].key
  }

  /** A key `set` accepts: non-empty and leaving room for the terminator. */
  predicate ValidKey(k: string)
  {
    0 < |k| < MaxKeyLen
  }

  /** What every snapshot built through `set` satisfies. */
  predicate Valid(s: Snapshot)
  {
    && |s.entries| <= MaxEntries
    && UniqueKeys(s.entries)
    && forall i :: 0 <= i < |s.entries| ==> ValidKey(s.entries[i].key)
  }

  /** `SensorResult(name)`. */
  function New(name: string): (s: Snapshot)
    ensures s.entries == [] && s.sensorName == name && Valid(s)
  {
    Snapshot([], name)
  }

  /** `SensorResult()`: the default name is "Unknown". */
  function Default(): (s: Snapshot)
    ensures IsEmpty(s) && GetSensorName(s) == "Unknown"
  {
    New(UnknownName)
  }

  /** `SensorResultNode(key, value)`: the key is copied into an 8-byte buffer,
      so at most 7 characters survive; a null key stores the empty string. */
  function NewNode(key: Option<string>, value: real): (e: Entry)
    ensures |e.key| <= MaxKeyLen - 1
    ensures key.None? ==> e.key == ""
    ensures key.Some? ==> e.key <= key.value
    ensures key.Some? && |key.value| < MaxKeyLen ==> e.key == key.value
    ensures e.value == value
  {
    match key
    case None => Entry("", value)
    case Some(k) => Entry(Truncate(k, MaxKeyLen - 1), value)
  }

  /** The list walk `while (node) { if (strcmp(node->entry.key, key) == 0) ... }`:
      the position of the first entry with key `k`. */
  function IndexOf(entries: seq<Entry>, k: string): (r: Option<nat>)
    ensures r.None? <==> k !in Keys(entries)
    ensures r.Some? ==> r.value < |entries| && entries[r.value].key == k
    ensures r.Some? ==> forall j :: 0 <= j < r.value ==> entries[j].key != k
  {
    if |entries| == 0 then None
    else if entries[0].key == k then Some(0)
    else
      match IndexOf(entries[1..], k)
      case None => None
      case Some(j) => Some(j + 1)
  }

  /** The null and empty key checks that open every keyed operation. */
  function KeyError(key: Option<string>): (e: Option<Exception>)
    ensures e.None? <==> key.Some? && |key.value| > 0
    ensures key.None? ==> e == Some(Exception(InvalidArgument, "Key cannot be null"))
    ensures key.Some? && |key.value| == 0 ==> e == Some(Exception(InvalidArgument, "Key cannot be empty"))
  {
    match key
    case None => Some(Exception(InvalidArgument, "Key cannot be null"))
    case Some(k) => if |k| == 0 then Some(Exception(InvalidArgument, "Key cannot be empty")) else None
  }

  /** Appending a new key must not overflow the `uint8_t` count. */
  predicate RoomFor(s: Snapshot, key: Option<string>)
  {
    |s.entries| < MaxEntries || key.None? || !ValidKey(key.value) || key.value in Keys(s.entries)
  }

  /** `set(key, value)`: upsert. All checks precede any change; an existing
      key keeps its position; a new key goes to the tail. */
  function Set(s: Snapshot, key: Option<string>, value: real): (r: Outcome<Snapshot>)
    requires RoomFor(s, key)
    ensures KeyError(key).Some? ==> r == Throw(KeyError(key).value)
    ensures key.Some? && |key.value| >= MaxKeyLen ==> r == Throw(KeyTooLong)
    ensures r.Ok? <==> key.Some? && ValidKey(key.value)
    ensures r.Ok? ==> r.value.sensorName == s.sensorName
    ensures r.Ok? && key.value in Keys(s.entries) ==>
              exists i :: 0 <= i < |s.entries| && s.entries[i].key == key.value &&
                          r.value.entries == s.entries[i := Entry(key.value, value)]
    ensures r.Ok? && key.value !in Keys(s.entries) ==>
              r.value.entries == s.entries + [Entry(key.value, value)]
  {
    match KeyError(key)
    case Some(e) => Throw(e)
    case None =>
      if |key.value| >= MaxKeyLen then Throw(KeyTooLong)
      else
        match IndexOf(s.entries, key.value)
        case Some(i) => Ok(s.(entries := s.entries[i := s.entries[i].(value := value)]))
        case None => Ok(s.(entries := s.entries + [NewNode(key, value)]))
  }

  /** `getValue(const char* key)`. */
  function GetValue(s: Snapshot, key: Option<string>): (r: Outcome<real>)
    ensures KeyError(key).Some? ==> r == Throw(KeyError(key).value)
    ensures KeyError(key).None? ==> (r.Ok? <==> key.value in Keys(s.entries))
    ensures KeyError(key).None? && key.value !in Keys(s.entries) ==> r == Throw(KeyNotFoundError(key.value))
    ensures r.Ok? ==> exists i :: 0 <= i < |s.entries| && s.entries[i] == Entry(key.value, r.value)
  {
    match KeyError(key)
    case Some(e) => Throw(e)
    case None =>
      match IndexOf(s.entries, key.value)
      case Some(i) => Ok(s.entries[i].value)
      case None => Throw(KeyNotFoundError(key.value))
  }

  /** `getValue(uint8_t idx)`: the idx-th value in insertion order. */
  function GetValueAt(s: Snapshot, idx: uint8): (r: Outcome<real>)
    requires |s.entries| <= MaxEntries
    ensures r.Ok? <==> idx < CountEntries(s)
    ensures r.Ok? ==> r.value == s.entries[idx].value
    ensures r.Throw? ==> r.error == IndexOutOfRange
  {
    if idx >= CountEntries(s) then Throw(IndexOutOfRange) else Ok(s.entries[idx].value)
  }

  /** `getKey(uint8_t idx)`: the idx-th key in insertion order. */
  function GetKey(s: Snapshot, idx: uint8): (r: Outcome<string>)
    requires |s.entries| <= MaxEntries
    ensures r.Ok? <==> idx < CountEntries(s)
    ensures r.Ok? ==> r.value == Keys(s.entries)[idx]
    ensures r.Throw? ==> r.error == IndexOutOfRange
  {
    if idx >= CountEntries(s) then Throw(IndexOutOfRange) else Ok(s.entries[idx].key)
  }

  /** `countEntries()`. */
  function CountEntries(s: Snapshot): (n: uint8)
    requires |s.entries| <= MaxEntries
    ensures n == |Keys(s.entries)|
  {
    |s.entries|
  }

  /** `has(key)`: a pure query. */
  function Has(s: Snapshot, key: Option<string>): (r: Outcome<bool>)
    ensures KeyError(key).Some? ==> r == Throw(KeyError(key).value)
    ensures KeyError(key).None? ==> r == Ok(key.value in Keys(s.entries))
  {
    match KeyError(key)
    case Some(e) => Throw(e)
    case None => Ok(IndexOf(s.entries, key.value).Some?)
  }

  /** The entries with position `i` unlinked, the rest in their order. */
  function Without(e: seq<Entry>, i: nat): (d: seq<Entry>)
    requires i < |e|
    ensures |d| == |e| - 1
    ensures forall j :: 0 <= j < i ==> d[j] == e[j]
    ensures forall j :: i < j < |e| ==> d[j - 1] == e[j]
  {
    e[..i] + e[i + 1..]
  }

  /** `remove(key)`: unlinks the first entry with that key. */
  function Remove(s: Snapshot, key: Option<string>): (r: Outcome<Snapshot>)
    ensures KeyError(key).Some? ==> r == Throw(KeyError(key).value)
    ensures KeyError(key).None? && key.value !in Keys(s.entries) ==> r == Throw(KeyNotFoundError(key.value))
    ensures KeyError(key).None? && key.value in Keys(s.entries) ==>
              r.Ok? && r.value.sensorName == s.sensorName &&
              exists i :: 0 <= i < |s.entries| && s.entries[i].key == key.value &&
                          r.value.entries == Without(s.entries, i)
  {
    match KeyError(key)
    case Some(e) => Throw(e)
    case None =>
      match IndexOf(s.entries, key.value)
      case Some(i) => Ok(s.(entries := Without(s.entries, i)))
      case None => Throw(KeyNotFoundError(key.value))
  }

  /** `clear()`. */
  function Clear(s: Snapshot): (r: Snapshot)
    ensures IsEmpty(r) && r.sensorName == s.sensorName
  {
    s.(entries := [])
  }

  function GetSensorName(s: Snapshot): string
  {
    s.sensorName
  }

  /** `isEmpty()`: `count == 0`. */
  predicate IsEmpty(s: Snapshot)
    ensures |s.entries| <= MaxEntries ==> (IsEmpty(s) <==> CountEntries(s) == 0)
  {
    |s.entries| == 0
  }

  /** `copyFrom(other)`: replays `set` for each entry, in order, stopping at
      the first one that throws. */
  function SetEach(dst: Snapshot, src: seq<Entry>): (r: Outcome<Snapshot>)
    requires |dst.entries| + |src| <= MaxEntries
    ensures r.Ok? ==> r.value.sensorName == dst.sensorName
    ensures r.Ok? ==> |r.value.entries| <= |dst.entries| + |src|
    decreases |src|
  {
    if |src| == 0 then Ok(dst)
    else
      match Set(dst, Some(src[0].key), src[0].value)
      case Throw(e) => Throw(e)
      case Ok(d) => SetEach(d, src[1..])
  }

  /** When the replayed keys are valid and distinct from each other and from
      those already present, every replayed `set` appends and none throws. */
  lemma {:induction false} SetEachAppends(dst: Snapshot, src: seq<Entry>)
    requires |dst.entries| + |src| <= MaxEntries
    requires UniqueKeys(dst.entries + src)
    requires forall i :: 0 <= i < |src| ==> ValidKey(src[i].key)
    ensures SetEach(dst, src) == Ok(dst.(entries := dst.entries + src))
    decreases |src|
  {
    if |src| > 0 {
      var k := src[0].key;
      forall i | 0 <= i < |dst.entries|
        ensures dst.entries[i].key != k
      {
        assert (dst.entries + src)[i] == dst.entries[i];
        assert (dst.entries + src)[|dst.entries|] == src[0];
      }
      var d := dst.(entries := dst.entries + [src[0]]);
      assert Set(dst, Some(k), src[0].value) == Ok(d);
      assert d.entries + src[1..] == dst.entries + src;
      SetEachAppends(d, src[1..]);
    }
    else {
      assert dst.entries + src == dst.entries;
    }
  }

  /** The copy constructor: same entries in the same order and the same name,
      in storage of its own. */
  function Copy(other: Snapshot): (r: Snapshot)
    requires Valid(other)
    ensures r == other
  {
    var start := Snapshot([], other.sensorName);
    assert start.entries + other.entries == other.entries;
    SetEachAppends(start, other.entries);
    SetEach(start, other.entries).value
  }

  /** Copy assignment; `aliased` is `this == &other`, in which case nothing
      happens. */
  function CopyAssign(self: Snapshot, other: Snapshot, aliased: bool): (r: Snapshot)
    requires Valid(other)
    requires aliased ==> self == other
    ensures r == other
    ensures aliased ==> r == self
  {
    if aliased then self
    else
      var cleared := Clear(self).(sensorName := other.sensorName);
      assert cleared.entries + other.entries == other.entries;
      SetEachAppends(cleared, other.entries);
      SetEach(cleared, other.entries).value
  }

  /** The move constructor: returns the new object and what is left in the
      source. */
  function MoveConstruct(other: Snapshot): (r: (Snapshot, Snapshot))
    ensures r.0 == other
    ensures IsEmpty(r.1) && GetSensorName(r.1) == "Unknown"
  {
    (other, Default())
  }

  /** Move assignment; returns the target and the source afterwards. */
  function MoveAssign(self: Snapshot, other: Snapshot, aliased: bool): (r: (Snapshot, Snapshot))
    requires aliased ==> self == other
    ensures aliased ==> r == (self, other)
    ensures !aliased ==> r.0 == other && IsEmpty(r.1) && GetSensorName(r.1) == "Unknown"
  {
    if aliased then (self, other) else (other, Default())
  }

  /** `set` keeps keys unique and within the bound. */
  lemma SetKeepsValid(s: Snapshot, key: Option<string>, value: real)
    requires Valid(s) && RoomFor(s, key)
    ensures Set(s, key, value).Ok? ==> Valid(Set(s, key, value).value)
  {
    var r := Set(s, key, value);
    if r.Ok? && key.value !in Keys(s.entries) {
      var e := r.value.entries;
      forall i, j | 0 <= i < j < |e|
        ensures e[i].key != e[j].key
      {
        if j == |s.entries| {
          assert e[i] == s.entries[i];
        }
      }
    }
  }

  /** Reading back a key just set returns the value set. */
  lemma SetThenGet(s: Snapshot, k: string, value: real)
    requires Valid(s) && RoomFor(s, Some(k)) && ValidKey(k)
    ensures Set(s, Some(k), value).Ok?
    ensures GetValue(Set(s, Some(k), value).value, Some(k)) == Ok(value)
  {
    var r := Set(s, Some(k), value).value;
    SetKeepsValid(s, Some(k), value);
    var i: nat;
    if k in Keys(s.entries) {
      i :| 0 <= i < |s.entries| && s.entries[i].key == k &&
           r.entries == s.entries[i := Entry(k, value)];
    } else {
      i := |s.entries|;
    }
    assert r.entries[i] == Entry(k, value);
    assert Keys(r.entries)[i] == k;
    var g := GetValue(r, Some(k));
    var j :| 0 <= j < |r.entries| && r.entries[j] == Entry(k, g.value);
    assert i == j;
  }

  /** Overwriting an existing key changes neither the count nor the key order. */
  lemma {:induction false} SetExistingKeepsOrder(s: Snapshot, k: string, value: real)
    requires ValidKey(k) && k in Keys(s.entries)
    ensures Set(s, Some(k), value).Ok?
    ensures Keys(Set(s, Some(k), value).value.entries) == Keys(s.entries)
  {
    var r := Set(s, Some(k), value).value;
    var i :| 0 <= i < |s.entries| && s.entries[i].key == k &&
             r.entries == s.entries[i := Entry(k, value)];
    assert forall j :: 0 <= j < |r.entries| ==> r.entries[j].key == s.entries[j].key;
  }

  /** Setting a new key appends it: the count grows by one and the key order
      is the old order followed by the new key. */
  lemma {:induction false} SetNewAppendsKey(s: Snapshot, k: string, value: real)
    requires ValidKey(k) && k !in Keys(s.entries) && |s.entries| < MaxEntries
    ensures Set(s, Some(k), value).Ok?
    ensures Keys(Set(s, Some(k), value).value.entries) == Keys(s.entries) + [k]
    ensures CountEntries(Set(s, Some(k), value).value) == CountEntries(s) + 1
  {
    var r := Set(s, Some(k), value).value;
    assert r.entries == s.entries + [Entry(k, value)];
    assert forall j :: 0 <= j < |s.entries| ==> r.entries[j].key == s.entries[j].key;
  }

  /** Dropping position `i` drops it from the key sequence too. */
  lemma {:induction false} KeysWithout(e: seq<Entry>, i: nat)
    requires i < |e|
    ensures Keys(Without(e, i)) == Keys(e)[..i] + Keys(e)[i + 1..]
  {
    var d := Without(e, i);
    var ks := Keys(e);
    forall j | 0 <= j < |d|
      ensures Keys(d)[j] == (ks[..i] + ks[i + 1..])[j]
    {
      if j >= i {
        assert d[j] == e[j + 1];
      }
    }
  }

  /** Dropping one entry from entries with unique, valid keys leaves unique,
      valid keys, none of them the dropped one's. */
  lemma {:induction false} WithoutKeepsUnique(e: seq<Entry>, i: nat)
    requires i < |e| && UniqueKeys(e)
    requires forall j :: 0 <= j < |e| ==> ValidKey(e[j].key)
    ensures UniqueKeys(Without(e, i))
    ensures forall j :: 0 <= j < |Without(e, i)| ==> ValidKey(Without(e, i)[j].key)
    ensures e[i].key !in Keys(Without(e, i))
  {
    var re := Without(e, i);
    forall a, b | 0 <= a < b < |re|
      ensures re[a].key != re[b].key
    {
      var a' := if a < i then a else a + 1;
      var b' := if b < i then b else b + 1;
      assert re[a] == e[a'] && re[b] == e[b'];
    }
    forall j | 0 <= j < |re|
      ensures ValidKey(re[j].key) && re[j].key != e[i].key
    {
      var j' := if j < i then j else j + 1;
      assert re[j] == e[j'];
    }
  }

  /** Removing a present key: it is gone, the count drops by one, the other
      keys keep their relative order, and the snapshot stays valid. */
  lemma {:induction false} RemoveDeletesKey(s: Snapshot, k: string)
    requires Valid(s) && |k| > 0 && k in Keys(s.entries)
    ensures Remove(s, Some(k)).Ok?
    ensures var r := Remove(s, Some(k)).value;
            && Valid(r)
            && k !in Keys(r.entries)
            && CountEntries(r) == CountEntries(s) - 1
            && exists i :: 0 <= i < |s.entries| && Keys(r.entries) == Keys(s.entries)[..i] + Keys(s.entries)[i + 1..]
  {
    var r := Remove(s, Some(k)).value;
    var e := s.entries;
    var i :| 0 <= i < |e| && e[i].key == k && r.entries == Without(e, i);
    KeysWithout(e, i);
    WithoutKeepsUnique(e, i);
  }

  /** Setting a new key and then removing it restores the snapshot. */
  lemma {:induction false} SetThenRemoveRestores(s: Snapshot, k: string, value: real)
    requires Valid(s) && ValidKey(k) && k !in Keys(s.entries) && |s.entries| < MaxEntries
    ensures Set(s, Some(k), value).Ok?
    ensures Remove(Set(s, Some(k), value).value, Some(k)) == Ok(s)
  {
    var r := Set(s, Some(k), value).value;
    assert r.entries == s.entries + [Entry(k, value)];
    assert forall j :: 0 <= j < |s.entries| ==> r.entries[j] == s.entries[j];
    assert forall j :: 0 <= j < |s.entries| ==> Keys(s.entries)[j] != k;
    assert Keys(r.entries)[|s.entries|] == k;

    assert Without(r.entries, |s.entries|) == s.entries;
  }

  /** After `clear()` nothing of the old contents survives: a `set` yields a
      snapshot holding that one entry, under the old name, and every other
      key is then missing. */
  lemma ClearThenSetHoldsOnlyThat(s: Snapshot, key: string, value: real, other: string)
    requires ValidKey(key) && ValidKey(other) && other != key
    ensures Set(Clear(s), Some(key), value) == Ok(Snapshot([Entry(key, value)], s.sensorName))
    ensures GetValue(Set(Clear(s), Some(key), value).value, Some(key)) == Ok(value)
    ensures GetValue(Set(Clear(s), Some(key), value).value, Some(other)) == Throw(KeyNotFoundError(other))
  {
    assert key !in Keys(Clear(s).entries);
    var r := Set(Clear(s), Some(key), value).value;
    assert r.entries == [Entry(key, value)];
    assert Keys(r.entries) == [key];
  }

  /** Moving yields what copying yields; only the source differs. */
  lemma MoveMatchesCopy(s: Snapshot)
    requires Valid(s)
    ensures MoveConstruct(s).0 == Copy(s)
  {
  }

  /** `getSensorName` returns the name given at construction, copy or move. */
  lemma SensorNameFollowsConstruction(name: string, self: Snapshot, other: Snapshot, aliased: bool)
    requires Valid(other) && (aliased ==> self == other)
    ensures GetSensorName(New(name)) == name
    ensures GetSensorName(Copy(other)) == GetSensorName(other)
    ensures GetSensorName(CopyAssign(self, other, aliased)) == GetSensorName(other)
    ensures GetSensorName(MoveAssign(self, other, aliased).0) == GetSensorName(other)
  {
  }
}

=== FILE: sensors.dfy ===
/** The `ISensor` interface as a closed sum of the four concrete sensors:
    each virtual call dispatches on the variant (include/ISensor.h). */
module Sensors {
  import opened Timing
  import opened Exceptions
  import opened SensorResult
  import opened SensorContract
  import G = GenericAnalogInput
  import Mic = AnalogMicrophone
  import U = MPU6050
  import Q = MQ135

  datatype Sensor =
    | GenericInput(generic: G.GenericAnalogInputSensor)
    | Microphone(mic: Mic.AnalogMicrophoneSensor)
    | MotionSensor(imu: U.MPU6050Sensor)
    | GasSensor(gas: Q.MQ135Sensor)

  /** What the hardware answers during one member call: the clock, the ADC,
      the MPU6050 handshakes and samples, the gas regressions, and the
      float dB conversion. Each sensor reads only its own fields. */
  datatype Hardware = Hardware(
    now: u32,
    analog: int,
    micSample: u32,
    handshake: seq<bool>,
    motion: Option<U.Motion>,
    exceeded: bool,
    calibration: seq<Option<U.Motion>>,
    gas: Q.GasReadings,
    toDb: real -> real)

  function Base(s: Sensor): SensorBase
  {
    match s
    case GenericInput(g) => g.base
    case Microphone(m) => m.base
    case MotionSensor(u) => u.base
    case GasSensor(q) => q.base
  }

  /** `getSensorName()`. */
  function Name(s: Sensor): string
  {
    Base(s).sensorName
  }

  predicate Initialized(s: Sensor)
  {
    match s
    case GenericInput(g) => g.initialized
    case Microphone(m) => m.initialized
    case MotionSensor(u) => u.initialized
    case GasSensor(q) => q.initialized
  }

  /** The same object: same concrete class, name and interval. No member
      call changes these. */
  predicate SameIdentity(s: Sensor, t: Sensor)
  {
    && s.GenericInput? == t.GenericInput? && s.Microphone? == t.Microphone?
    && s.MotionSensor? == t.MotionSensor? && s.GasSensor? == t.GasSensor?
    && Name(s) == Name(t) && Base(s).updateInterval == Base(t).updateInterval
  }

  /** `begin()`: only the MPU6050 can fail, and then with
      `SensorInitializationException`, as the interface documents. */
  function Begin(s: Sensor, h: Hardware): (t: Transition<Sensor, ()>)
    ensures SameIdentity(s, t.next)
    ensures t.result.Ok? <==> Initialized(t.next)
    ensures t.result.Throw? ==> s.MotionSensor? && t.result.error.kind == SensorInitialization
  {
    match s
    case GenericInput(g) => Transition(GenericInput(G.Begin(g)), Ok(()))
    case Microphone(m) => Transition(Microphone(Mic.Begin(m)), Ok(()))
    case MotionSensor(u) =>
      var t := U.Begin(u, h.handshake, h.calibration);
      Transition(MotionSensor(t.next), t.result)
    case GasSensor(q) => Transition(GasSensor(Q.Begin(q)), Ok(()))
  }

  /** `update()` throws exactly when the sensor is not initialised, except
      the MQ135, which only logs. */
  predicate UpdateFails(s: Sensor)
  {
    !Initialized(s) && !s.GasSensor?
  }

  /** `update()`. `drift` is the MPU6050's function-static drift timer, the
      one piece of state shared between sensor objects. */
  function Update(s: Sensor, drift: U.DriftTimer, h: Hardware): (t: Transition<(Sensor, U.DriftTimer), ()>)
    ensures t.result.Throw? <==> UpdateFails(s)
    ensures t.result.Throw? ==> t.result.error == NotInitializedError && t.next == (s, drift)
    ensures SameIdentity(s, t.next.0) && Initialized(t.next.0) == Initialized(s)
    ensures !s.MotionSensor? ==> t.next.1 == drift
  {
    match s
    case GenericInput(g) => Transition((s, drift), G.Update(g))
    case Microphone(m) =>
      var t := Mic.Update(m, h.now, h.micSample, h.toDb);
      Transition((Microphone(t.next), drift), t.result)
    case MotionSensor(u) =>
      var t := U.Update(u, drift, h.now, h.motion.Some?, h.exceeded, h.calibration);
      Transition((MotionSensor(t.next.0), t.next.1), t.result)
    case GasSensor(q) => Transition((s, drift), Q.Update(q))
  }

  /** `readValues(force, updateReadTime)`. The only exceptions are the two
      the interface documents, plus the microphone's "Key too long". */
  function ReadValues(s: Sensor, opts: ReadOptions, h: Hardware): (t: Transition<Sensor, Snapshot>)
    ensures !Initialized(s) ==> t == Transition(s, Throw(NotInitializedError))
    ensures t.result.Throw? ==>
              || t.result.error == NotInitializedError
              || t.result.error == U.ReadFailure
              || (s.Microphone? && t.result.error == KeyTooLong)
    ensures SameIdentity(s, t.next) && Initialized(t.next) == Initialized(s)
    ensures !opts.updateReadTime ==> t.next == s
    ensures t.result.Ok? ==> Valid(t.result.value) && t.result.value.sensorName == Name(s)
  {
    match s
    case GenericInput(g) =>
      var t := G.ReadValues(g, opts, h.now, h.analog);
      Transition(GenericInput(t.next), t.result)
    case Microphone(m) =>
      var t := Mic.ReadValues(m, opts);
      Transition(Microphone(t.next), t.result)
    case MotionSensor(u) =>
      var t := U.ReadValues(u, opts, h.now, h.motion);
      Transition(MotionSensor(t.next), t.result)
    case GasSensor(q) =>
      var t := Q.ReadValues(q, opts, h.now, h.gas);
      Transition(GasSensor(t.next), t.result)
  }
}

=== FILE: timing.dfy ===
/** The 32-bit millisecond clock of the ESP32 target, where `unsigned long`
    and `uint32_t` are both 32 bits wide and subtraction wraps around. */
module Timing {

  const Modulus: int := 0x1_0000_0000

  /** An `unsigned long` / `uint32_t` value. */
  type u32 = x: int | 0 <= x < 0x1_0000_0000

  /** `a - b` on 32-bit unsigned operands: the amount by which `b` must be
      advanced, modulo 2^32, to reach `a`. */
  function WrapSub(a: u32, b: u32): (d: u32)
    ensures (b + d) % Modulus == a
    ensures a >= b ==> d == a - b
    ensures a < b ==> d == a + Modulus - b
  {
    (a - b) % Modulus
  }

  /** The wrapped difference is the only 32-bit value that advances `b` to `a`,
      so a deadline test across a clock wrap-around still measures elapsed time. */
  lemma WrapSubIsUnique(a: u32, b: u32, d: u32)
    requires (b + d) % Modulus == a
    ensures d == WrapSub(a, b)
  {
    if b + d >= Modulus {
      assert b + d - Modulus == a;
    } else {
      assert b + d == a;
    }
  }
}
